=== FILE: README.md ===
# Affinity Stealth Adder: the reconciliation engine, verified

The browser extension scrapes a record from the page the operator is on: a
LinkedIn profile (full name, profile URL) or a company website (company
name, domain). Its background worker (`background.js`) then reconciles that
record with the Affinity CRM. It resolves the operator, creates or reuses the
organization and person, links them, puts the right entity on the deal list
or the "Interesting People" list, and sets the entry's owner and status. It
attaches the operator's note and returns a link to the record. A separate
read-only operation reports whether the organization already exists.

The model is in Dafny and is arranged as follows.

- `records.dfy`: the values involved (scraped input, settings, organizations,
  persons, users, fields, list entries). JavaScript's "missing" is written
  out: an absent string is `""` and an optional id is an `Option`.
- `oracle.dfy`: the remote service as an oracle. A `Call` is a request the
  engine can issue, and a `Service` fixes the reply to every request: a
  transport failure, a 2xx body that does or does not parse, or a refusal
  with its status text and message.
- `text.dfy`: the string built-ins the engine depends on, written out. These
  are `split`/`join`, `trim`, `toLowerCase`, `includes`, `parseInt` and the
  rendering of an id inside a URL.
- `decisions.dfy`: the engine's pure decisions. These are name splitting,
  search terms, duplicate matching, field lookup by name, dropdown options,
  owner candidates, the operator's person id and the fields of a list.
- `workflow.dfy`: each step of the pipeline as a function of the service. A
  step gives its result and the exact sequence of requests it issues.
- `engine.dfy`: the engine as sequential code. Class `Client` holds the
  service and the log of issued requests. Each method appends exactly the
  requests of its `Workflow` counterpart and returns that function's value.
  The owner fallback is a loop with its invariants.
- `properties.dfy`, `pipeline.dfy`, `outcomes.dfy`: what is proved about the
  steps and about whole runs:
  - what each step asks and writes;
  - the order in which remote state is changed;
  - what a successful run has attached to which record;
  - how a failed mandatory request ends a run;
  - that the best-effort steps never decide the result.
- `wrappers.dfy`, `sequences.dfy`: `Option`/`Result`, and associativity of
  concatenation.

Where the code and its written description differ, the model follows the
code:

- A missing people-list id is detected only after the operator has been
  resolved. The identity, person-search and user requests have already been
  issued by then; none of them writes (`Properties.PeopleListRequired`).
- The list's fields are fetched again for every use. The people flow reads
  them once for the owner and once for the status; nothing is cached.
- The result's `owner` is the resolved operator, whether or not an owner
  write was accepted.
- The LinkedIn person search reuses a hit only from a `{persons: [...]}`
  body. The operator's email search also accepts a bare array.
- From a website, the people flow creates the person `companyName ||
  'Unknown'`. It first searches persons by the text `"undefined"`, and on
  creation writes a LinkedIn field value that JSON drops.

## Model

| member | source | states |
|---|---|---|
| Text.Trim | background.js:86-87 | `trim()` strips the ECMAScript white space at both ends. The result is empty exactly when the text is all white space; otherwise it starts and ends with a non-space. |
| Text.TrimStretch | background.js:86-87 | What `trim()` keeps is the text between its leading and its trailing white space. The result is the slice starting where the leading white space ends, and everything before and after that slice is white space. |
| Text.ToLower | background.js:331-334 | `toLowerCase()` keeps the length and folds each character independently. |
| Text.Split | background.js:58 | `split(' ')` yields at least one part, and no part contains the separator. |
| Text.JoinSplit | background.js:58-60 | Re-joining the parts of `split(' ')` with `' '` gives back the original text, for every text. |
| Text.ParseIntText | background.js:426 | `parseInt` of the decimal rendering of any integer gives that integer back. |
| Decisions.SplitNameSpec | background.js:56-60 | The first name is the text before the first space, or all of it when there is none. The last name is the text after that space, or the first name when nothing follows. |
| Decisions.SplitNameAt | background.js:107-109 | When the first space is at index k, the names are the texts on either side of it, with the same fallback for an empty rest. |
| Decisions.SplitNameExample | background.js:58-60 | "Jane Q Public" splits into "Jane" and "Q Public". |
| Decisions.FindDuplicate | background.js:173-181 | A duplicate is found iff some returned organization has the input's domain (when it has one), the search term as its name, or the company name. The first such organization is returned. |
| Decisions.OwnerFieldIgnoresCase | background.js:331-334 | A field is the owner field iff its name equals "Owners" or "Owner", ignoring case. |
| Decisions.StatusValue | background.js:680-689 | The status write carries an option id iff some dropdown option's text matches the status ignoring case, and then the first match's id. Otherwise it carries the status text. |
| Decisions.OwnerCandidatesSpec | background.js:344-349 | The owner ids tried are exactly the present, non-zero ids among person, user, id and grant, at most four. They come in that order: the person id first when set, the user id right after it, the id after those two, and the grant id last. There are none iff all four are falsy. |
| Decisions.InternalPersonId | background.js:297-310 | No id iff there are no results. Otherwise it is the first person with a case-insensitive exact email match, or the first result when none matches. |
| Decisions.TeamMember | background.js:272-275 | The first user whose `id` or `user_id` equals the wanted id; none when no user matches. |
| Decisions.FieldsForList | background.js:425-427 | A global field is kept iff it is in the input and its `list_id` is `parseInt(listId)` or the `listId` text itself. |
| Decisions.FirstFieldOfList | background.js:425-427 | The filter keeps the order of the global fields. So the first kept field that satisfies a test (what `fields.find` returns) is the first global field that both belongs to the list and satisfies the test. |
| Decisions.FieldsForNumericList | background.js:425-427 | For a list id saved as a number's decimal text, exactly the fields with that numeric `list_id` (or that exact text) are kept. |
| Decisions.NoteText | background.js:86-87 | There is no note iff the text is all white space. Otherwise the note is the trimmed text: non-empty, with no white space at either end. |
| Engine.Client.FindInternalPersonByEmail | background.js:284-316 | Issues the person search for the email and returns the id `InternalPersonRun` computes; see `Decisions.InternalPersonId`. |
| Engine.Client.FindTeamMemberById | background.js:239-282 | Asks for the single user; when that fails, lists all users and returns the match. The requests and result are exactly those of `TeamMemberRun`. |
| Engine.Client.GetCurrentUser | background.js:197-237 | Resolves the operator step by step with exactly the requests and result of `CurrentUserRun`; see the `Properties.CurrentUser*` lemmas. |
| Engine.Client.GetListFields | background.js:393-436 | Issues exactly the requests of `ListFieldsRun` and returns its fields; see `Properties.ListFieldsSpec`. |
| Engine.Client.SetListEntryOwner | background.js:318-391 | Issues exactly the reads and owner writes of `OwnerRun`; see `Properties.OwnerRunSpec`. |
| Engine.Client.TryOwners | background.js:355-387 | The owner loop, proved with invariants. It issues exactly `OwnerAttempts`: each candidate in turn, up to and including the first accepted write. |
| Engine.Client.SetStatus | background.js:662-709 | Issues exactly the reads and the status write of `StatusRun`; see `Properties.StatusRunSpec`. |
| Engine.Client.CreateOrganization | background.js:438-459 | Issues the organization request of `OrgRequest` and returns the organization, or the failure its reply gives. |
| Engine.Client.FindPersonByLinkedIn | background.js:547-570 | Issues one person search by the URL and returns the first person of a wrapped, non-empty body. |
| Engine.Client.AddLinkedInField | background.js:572-611 | Reads the person fields, then writes the URL into the first LinkedIn field, exactly as `LinkedInFieldCalls` lists. |
| Engine.Client.CreatePerson | background.js:461-493 | Issues exactly the requests of `CreatePersonRun` and returns its person or failure; see `Properties.PersonReuse`. |
| Engine.Client.LinkPersonToOrganization | background.js:495-545 | Issues the three linking requests, in order, whatever their replies. |
| Engine.Client.AddToList | background.js:640-660 | Issues the list-entry request and returns the entry, or the failure its reply gives. |
| Engine.Client.AddNote | background.js:613-638 | Posts the trimmed note on the entity through the given scope, or nothing for a blank note; see `Properties.NoteSpec`. |
| Engine.Client.FollowUpOrganization | background.js:80-88 | Sets the owner when the operator is known, then posts the note, exactly as `OrgFollowUps` lists. |
| Engine.Client.PlaceOrganization | background.js:76-92 | Adds the organization to the deal list and then does its follow-ups, with exactly the requests and outcome of `PlaceOrgRun`. |
| Engine.Client.CreateDealRecords | background.js:53-74 | Creates the deal-list records (organization, and from a profile the person and the links), exactly as `DealRecordsRun` does. |
| Engine.Client.HandleMasterDealList | background.js:48-93 | The deal-list flow, with exactly the requests and outcome of `MasterDealRun`. |
| Engine.Client.FollowUpPerson | background.js:125-138 | Owner when the operator is known, then the "Reached Out" status, then the note, exactly as `PersonFollowUps` lists. |
| Engine.Client.PlacePerson | background.js:121-142 | Adds the person to the people list and then does its follow-ups, with exactly the requests and outcome of `PlacePersonRun`. |
| Engine.Client.HandleInterestingPeople | background.js:95-143 | The people-list flow, with exactly the requests and outcome of `InterestingPeopleRun`. |
| Engine.Client.HandleAddToAffinity | background.js:21-46 | The whole pipeline, with exactly the requests and outcome of `AddRun`. |
| Engine.Client.CheckForDuplicate | background.js:145-195 | The duplicate check, with exactly the request and answer of `DuplicateRun`; see `Properties.DuplicateSpec`. |
| Properties.OwnerAttemptsSpec | background.js:355-385 | Candidates are written in order, never more than there are. Every write but the last issued was refused, the loop stops right after an accepted write, and it tries all candidates when none is accepted. |
| Properties.OwnerRunSpec | background.js:318-391 | The list's fields are read first. Without an owner field those reads are the only requests. Every write goes to the owner field of the given entry and entity and carries a candidate id. Every write before the last was refused. |
| Properties.OwnerRunLoop | background.js:331-385 | With an owner field, the requests after the field reads are the owner writes for the operator's candidates, in order. There is at least one write when there is a candidate. The writes stop right after the first accepted one and go through every candidate when none is accepted. |
| Properties.StatusRunSpec | background.js:662-709 | At most one write, issued exactly when the list has a "status" field (any case). The requests are then the field reads followed by that one write, to that field of the given entry, carrying `StatusValue`. Without a status field only the reads are issued. |
| Properties.ListFieldsSpec | background.js:393-436 | Only reads. The list's own fields when the list-scoped request succeeds. Otherwise a second request for the global fields, keeping exactly those that belong to the list (none when that request fails too). In that case the owner and status fields found are the first global fields of the list with those names. |
| Properties.CurrentUserSpec | background.js:197-237 | Only reads, starting with the identity request. There is no user iff that request fails, and then nothing else is asked. |
| Properties.CurrentUserResult | background.js:207-231 | After a successful identity request the operator is that record, with at most its person id changed, and only to a truthy one. The id is taken, in this order, from the first of these that is truthy. First, the id `InternalPersonId` picks from a parsed reply to the person search by email. Next, the identity's own id. Next, the `person_id` of the team member: the single-user reply when it parses, else `TeamMember` of a parsed user list. Else the id is unchanged. |
| Properties.CurrentUserLookups | background.js:211-229 | The email searched is the configured one, else the identity's own, and it is skipped when both are empty. The team-member lookup runs iff the person id is still falsy. All users are listed iff the team-member lookup runs and the single-user request fails. |
| Properties.DuplicateSpec | background.js:145-195 | Without an API key nothing is asked and no duplicate is reported. Otherwise one search by the input's term is issued. A duplicate is reported iff a returned organization matches. It is the first returned organization that matches (what `orgs.find` returns), with its "companies" link. |
| Properties.PersonReuse | background.js:461-493 | A hit from a wrapped search is reused with no write. Otherwise the person is created, and succeeds iff the service returns it. The only later write is the LinkedIn value on that new person. |
| Properties.PersonLinkedIn | background.js:572-611 | After creating a person, the person fields are read. The URL is written exactly when the fields reply parses and some field is a LinkedIn field (its name contains "linkedin" in any case, or its type is "linkedin"). The write goes to the first such field, as `fields.find` picks it, on the new person and outside any list. |
| Properties.ConfigRequired | background.js:25-27 | Without an API key or deal-list id, the run fails with the configuration message and issues no request. |
| Properties.PeopleListRequired | background.js:99-101 | Without a people-list id the people flow fails with its own message. It has issued only the operator-resolution reads. |
| Properties.NoteSpec | background.js:136-137 | No note is posted iff it is all white space. Otherwise exactly one note is posted: the trimmed text, on the given entity, through the given scope. |
| Pipeline.PersonStage | background.js:461-493 | Resolving a person writes only records and profile fields (stage 1). |
| Pipeline.OwnerStage | background.js:80-83 | Owner writes are list-entry field writes (stage 3). |
| Pipeline.StatusStage | background.js:130-133 | The status write is a list-entry field write (stage 3). |
| Pipeline.NoteStage | background.js:85-88 | The note step's writes are ordered and lie in the follow-up stages 3-4, after the list entry. |
| Pipeline.OrgFollowUpsOrdered | background.js:80-88 | After an organization's entry: the owner, then the note, in stage order. |
| Pipeline.PersonFollowUpsOrdered | background.js:125-138 | After a person's entry, the writes are in stage order: the owner and status writes (stage 3), then the note (stage 4). |
| Pipeline.StatusAfterOwner | background.js:125-133 | Within stage 3 the owner comes first. With a status field, the status write is preceded only by owner writes of the operator's candidates into the owner field, and followed only by the note. |
| Pipeline.PlaceOrgOrdered | background.js:76-88 | Placing the organization writes the list entry before any entry field or note. |
| Pipeline.PlacePersonOrdered | background.js:121-138 | Placing the person writes the list entry before any entry field or note. |
| Pipeline.DealRecordsStage | background.js:53-74 | The deal-list records are created and linked before anything else is written. |
| Pipeline.MasterDealOrdered | background.js:48-93 | The deal-list flow writes in stage order. |
| Pipeline.PeopleOrdered | background.js:95-143 | The people-list flow writes in stage order. |
| Pipeline.AddRunOrdered | background.js:21-46 | Every run writes in stage order: records and links, then the list entry, then its owner and status, then the note. |
| Outcomes.OwnerAttached | background.js:80-83 | Owner writes go only to the given entry of the given record. |
| Outcomes.NoteOn | background.js:613-620 | Every note request is a note on the given entity through the given scope. |
| Outcomes.OrgFollowUpsAttached | background.js:80-88 | The owner and note writes after an organization's entry stay on that entry and organization. |
| Outcomes.PersonFollowUpsAttached | background.js:125-138 | The owner, status and note writes after a person's entry stay on that entry and person. |
| Outcomes.PlaceOrgAdded | background.js:76-92 | The list entry is requested first, with entity type 0. Success iff the service returns the entry. The result then reports that entry, the organization, the person passed along, the operator and the "companies" link, and every later write stays on that entry. |
| Outcomes.PlacePersonAdded | background.js:121-142 | The same for a person on the people list: entity type 1, no organization, the "persons" link. |
| Outcomes.OrgTail | background.js:76-92 | After the organization exists, no record is created, and everything attached stays on its entry. |
| Outcomes.WebsiteRecords | background.js:70-74 | From a website, only the organization is requested: the scraped name, plus the domain when non-empty. It succeeds iff the service returns the organization. |
| Outcomes.ProfileRecords | background.js:53-69 | From a profile, the "Stealth_" organization is requested first, without a domain. It succeeds iff the organization and then the person are obtained, and it ends with the three linking requests. |
| Outcomes.DealAdded | background.js:48-93 | A successful deal-list run reports the records created, the entry the service returned, the operator and the "companies" link. Every entry write and note goes to that entry and organization. |
| Outcomes.DealCreations | background.js:48-93 | The deal-list flow creates records only in its first step. |
| Outcomes.WebsiteDealAdded | background.js:70-92 | From a website, a successful run reports the organization the service created, and no person. |
| Outcomes.WebsiteCreatesOrgOnly | background.js:70-74 | From a website, the deal-list flow creates nothing but the scraped organization. |
| Outcomes.PersonRecords | background.js:461-493 | Resolving a person creates no organization and attaches nothing to a list entry. |
| Outcomes.PersonTail | background.js:117-142 | After the person exists, no organization is created, and everything attached stays on the person's entry. |
| Outcomes.PeopleAdded | background.js:95-143 | A successful people-list run needs a people-list id. It reports no organization and the resolved person, placed on the people list with the entry the service returned and the "persons" link. It creates no organization. |
| Outcomes.CreateOrgSettled | background.js:453-456 | Creating an organization either succeeds with its request answered, or fails at that request with the error its reply gives. |
| Outcomes.PersonSettled | background.js:482-485 | The same for resolving a person, whose only mandatory request is the creation. |
| Outcomes.DealRecordsSettled | background.js:53-74 | The same for the deal-list records. |
| Outcomes.AddToListSettled | background.js:654-657 | The same for the list entry. |
| Outcomes.FollowUpsNotFatal | background.js:318-391 | Writes after the list entry (owner, status, note) are never mandatory requests. |
| Outcomes.PlaceOrgSettled | background.js:76-92 | Placing the organization succeeds with every mandatory request answered, or stops at the list entry with its error. |
| Outcomes.PlacePersonSettled | background.js:117-142 | The same for placing the person. |
| Outcomes.MasterDealSettled | background.js:48-93 | The deal-list flow succeeds with every mandatory request answered, or stops at the one that failed. |
| Outcomes.PeopleSettled | background.js:95-143 | The same for the people-list flow. |
| Outcomes.AddRunSettled | background.js:21-46 | A run succeeds only with every mandatory request answered. It fails for missing settings having written nothing. Otherwise it ends at the failed mandatory request, whose reply gives the error, every earlier one having succeeded. |
| Outcomes.OrganizationRejected | background.js:453-456 | For a website record sent to the deal list, a refused organization request ends the run with "Failed to create organization: " and the service's message, or its status text when there is none. It has issued only the operator reads and that request. |
| Outcomes.SamePerson | background.js:461-493 | Person resolution does not depend on the replies to the best-effort requests. |
| Outcomes.SameRecords | background.js:53-74 | Neither does the creation of the deal-list records. |
| Outcomes.BestEffortNeverDecides | background.js:21-46 | Two services that agree on the lookups and the mandatory requests give the same outcome. They may differ on field lists and on every owner, status, LinkedIn, link or note reply. |

## Left out

- Message passing (the `chrome.runtime` listener and its conversion of a thrown error into `{success: false, error}`), and `chrome.storage`. The settings are an input value.
- `fetch`, the Basic-auth header, `btoa`, `encodeURIComponent` and JSON encoding. A request is a `Call`; a reply is what the engine reads out of the response.
- Transport failures, and 2xx bodies that are not the expected JSON: the failure is `TransportError`. The text of the JavaScript exception is not modelled.
- `console.log` diagnostics and the Promise machinery. The pipeline is sequential code.
- `content.js` (page scraping, the button) and `popup.js` (settings screen) are not part of this model. `content.js` sends LinkedIn data without a `type`, which makes the engine treat it as a website; that is the caller's concern.
- `Text.ToLower` folds only ASCII letters, not the full Unicode case mapping of `toLowerCase`.
- `Text.ParseInt` reads decimal digits only, not the `0x` prefix `parseInt` also accepts.
- Malformed records (a field without a name, a non-array where an array is expected) make the JavaScript throw inside a best-effort `try`. The model assumes well-formed records.
- Records without an id. A person or organization whose reply lacks `id` does not make the JavaScript throw: the id goes out as `undefined` in the link, list-entry, owner, status and note requests and in the result URL (background.js:68, 122, 127, 132, 137, 141, 490). The model's `Id` is always present, so it does not capture requests with a missing id.
- Records that lack their strings. A LinkedIn record is taken to carry `fullName` and `linkedinUrl`, and a website record a `companyName` or a `domain`; the model treats a missing string as `""`. The JavaScript instead builds the text `"undefined"` for the search terms, the organization name and the LinkedIn search (background.js:56, 158-160, 551). It throws at `fullName.split` before any write (background.js:58, 107).
- Any target other than `'interesting_people'` is the deal list. The model has exactly the two targets.

=== FILE: decisions.dfy ===
/**
 * The pure decision logic of the engine (background.js): how names, org names
 * and search terms are derived, which existing organization counts as a
 * duplicate, how fields and dropdown options are found by name, which owner
 * ids are tried, which person is the operator, and which global fields belong
 * to a list.
 */
module Decisions {
  import opened Wrappers
  import opened Text
  import opened Records

  /** `Array.prototype.find`, returning the index of the first element that satisfies `p`. */
  function FindFirst<T>(xs: seq<T>, p: T -> bool): (r: Option<nat>)
    ensures r.Some? ==> r.value < |xs| && p(xs[r.value])
    ensures r.Some? ==> forall j :: 0 <= j < r.value ==> !p(xs[j])
    ensures r.None? ==> forall j :: 0 <= j < |xs| ==> !p(xs[j])
  {
    if xs == [] then None
    else if p(xs[0]) then Some(0)
    else match FindFirst(xs[1..], p)
      case None => None
      case Some(i) => Some(i + 1)
  }

  /** `Array.prototype.filter`. */
  function Filter<T(!new)>(xs: seq<T>, p: T -> bool): (r: seq<T>)
    ensures |r| <= |xs|
    ensures forall x :: x in r <==> x in xs && p(x)
  {
    if xs == [] then []
    else if p(xs[0]) then [xs[0]] + Filter(xs[1..], p)
    else Filter(xs[1..], p)
  }

  // ---------------------------------------------------------------- names

  /** The placeholder organization created for a LinkedIn profile. */
  function OrgName(fullName: string): string
  {
    "Stealth_" + fullName
  }

  datatype PersonName = PersonName(first: string, last: string)

  /**
   * `parts = fullName.split(' ')`: the first name is `parts[0]`, the last name
   * `parts.slice(1).join(' ') || firstName`.
   */
  function SplitName(fullName: string): PersonName
  {
    var parts := Split(fullName, ' ');
    var rest := Join(parts[1..], ' ');
    PersonName(parts[0], if rest == "" then parts[0] else rest)
  }

  /**
   * The first name is the text before the first space (all of it when there is
   * no space); the last name is the text after that space, or the first name
   * when nothing follows it.
   */
  lemma SplitNameSpec(fullName: string)
    ensures var n := SplitName(fullName);
      && ' ' !in n.first
      && (' ' !in fullName ==> n.first == fullName && n.last == fullName)
      && (' ' in fullName ==>
            && |n.first| < |fullName|
            && fullName == n.first + " " + fullName[|n.first| + 1..]
            && n.last == (if fullName[|n.first| + 1..] == "" then n.first else fullName[|n.first| + 1..]))
  {
    var parts := Split(fullName, ' ');
    var rest := Join(parts[1..], ' ');
    JoinSplit(fullName, ' ');
    if |parts| == 1 {
      assert fullName == parts[0];
    } else {
      assert fullName == parts[0] + " " + rest;
      assert fullName[|parts[0]|] == ' ';
      assert fullName[|parts[0]| + 1..] == rest;
    }
  }

  /** When the first space of `fullName` is at `k`, the names are the texts on either side of it. */
  lemma SplitNameAt(fullName: string, k: nat)
    requires k < |fullName| && fullName[k] == ' '
    requires forall j :: 0 <= j < k ==> fullName[j] != ' '
    ensures SplitName(fullName).first == fullName[..k]
    ensures SplitName(fullName).last == if fullName[k + 1..] == "" then fullName[..k] else fullName[k + 1..]
  {
    SplitNameSpec(fullName);
    var first := SplitName(fullName).first;
    assert ' ' in fullName;
    assert fullName[..|first|] == first;
    assert forall j :: 0 <= j < |first| ==> fullName[j] != ' ' by {
      forall j | 0 <= j < |first| ensures fullName[j] != ' ' {
        assert fullName[j] == first[j];
      }
    }
    assert fullName[|first|] == ' ';
  }

  /** The worked example: "Jane Q Public" splits into "Jane" and "Q Public". */
  lemma SplitNameExample(full: string)
    requires full == "Jane Q Public"
    ensures SplitName(full) == PersonName("Jane", "Q Public")
  {
    SplitNameAt(full, 4);
    assert full[..4] == "Jane";
    assert full[5..] == "Q Public";
  }

  // ---------------------------------------------------------- duplicates

  /** The term the duplicate check searches organizations by: `domain || companyName` for a website. */
  function SearchTerm(src: Source): string
  {
    match src
    case LinkedInProfile(fullName, _) => OrgName(fullName)
    case Website(companyName, domain) => if domain != "" then domain else companyName
  }

  /** The predicate handed to `orgs.find`: same domain (when the input has one), or same name. */
  predicate MatchesExisting(src: Source, term: string, org: Org)
  {
    || (src.Website? && src.domain != "" && org.domain == src.domain)
    || org.name == term
    || (src.Website? && org.name == src.companyName)
  }

  /** The first returned organization that matches the input, if any. */
  function FindDuplicate(src: Source, orgs: seq<Org>): (r: Option<Org>)
    ensures r.Some? <==> exists i :: 0 <= i < |orgs| && MatchesExisting(src, SearchTerm(src), orgs[i])
    ensures r.Some? ==> exists i :: (
      && 0 <= i < |orgs| && r.value == orgs[i]
      && MatchesExisting(src, SearchTerm(src), orgs[i])
      && forall j :: 0 <= j < i ==> !MatchesExisting(src, SearchTerm(src), orgs[j]))
  {
    var term := SearchTerm(src);
    match FindFirst(orgs, o => MatchesExisting(src, term, o))
    case None => None
    case Some(i) => Some(orgs[i])
  }

  // --------------------------------------------------------------- fields

  /** The owner field is named "owners" or "owner", compared after lower-casing. */
  predicate IsOwnerField(f: Field)
  {
    ToLower(f.name) == "owners" || ToLower(f.name) == "owner"
  }

  predicate IsStatusField(f: Field)
  {
    ToLower(f.name) == "status"
  }

  /** A person field that holds a LinkedIn URL: its name mentions "linkedin", or its type is "linkedin". */
  predicate IsLinkedInField(f: Field)
  {
    Contains(ToLower(f.name), "linkedin") || f.valueType == "linkedin"
  }

  /** `fields.find(p)` as a field rather than an index. */
  function FirstField(fields: seq<Field>, p: Field -> bool): (r: Option<Field>)
    ensures r.Some? ==> exists i :: (
      && 0 <= i < |fields| && fields[i] == r.value && p(fields[i])
      && forall j :: 0 <= j < i ==> !p(fields[j]))
    ensures r.None? <==> forall j :: 0 <= j < |fields| ==> !p(fields[j])
  {
    match FindFirst(fields, p)
    case None => None
    case Some(i) => Some(fields[i])
  }

  function OwnerField(fields: seq<Field>): Option<Field>
  {
    FirstField(fields, IsOwnerField)
  }

  function StatusField(fields: seq<Field>): Option<Field>
  {
    FirstField(fields, IsStatusField)
  }

  function LinkedInField(fields: seq<Field>): Option<Field>
  {
    FirstField(fields, IsLinkedInField)
  }

  /** Lower-casing makes the owner match blind to case: "Owner", "OWNERS" and "owners" all qualify. */
  lemma OwnerFieldIgnoresCase(f: Field)
    ensures IsOwnerField(f) <==> EqualsIgnoreCase(f.name, "Owners") || EqualsIgnoreCase(f.name, "Owner")
  {
    assert ToLower("Owners") == "owners";
    assert ToLower("Owner") == "owner";
  }

  /**
   * The value a status write sends: the id of the first dropdown option whose
   * text equals the wanted status ignoring case, else the status text itself.
   */
  function StatusValue(field: Field, status: string): (v: FieldValue)
    ensures v.IdValue? <==> (
      && field.dropdownOptions.Some?
      && exists k :: 0 <= k < |field.dropdownOptions.value|
           && EqualsIgnoreCase(field.dropdownOptions.value[k].text, status))
    ensures v.IdValue? ==> exists k :: (
      && 0 <= k < |field.dropdownOptions.value|
      && v.id == field.dropdownOptions.value[k].id
      && EqualsIgnoreCase(field.dropdownOptions.value[k].text, status)
      && forall j :: 0 <= j < k ==> !EqualsIgnoreCase(field.dropdownOptions.value[j].text, status))
    ensures !v.IdValue? ==> v == TextValue(status)
  {
    match field.dropdownOptions
    case None => TextValue(status)
    case Some(options) =>
      match FindFirst(options, (o: DropdownOption) => EqualsIgnoreCase(o.text, status))
      case None => TextValue(status)
      case Some(k) => IdValue(options[k].id)
  }

  /** `[x].filter(Boolean)` for one candidate id. */
  function KeepTruthy(x: Option<Id>): seq<Id>
  {
    if Truthy(x) then [x.value] else []
  }

  /** `[person_id, user_id, id, grant_id].filter(Boolean)`: the owner ids to try, in that order. */
  function OwnerCandidates(u: User): seq<Id>
  {
    KeepTruthy(u.personId) + KeepTruthy(u.userId) + KeepTruthy(u.id) + KeepTruthy(u.grantId)
  }

  /**
   * The candidates are exactly the present, non-zero ids among the four, at most
   * four of them, in the order person id, user id, id, grant id: each one set
   * sits right after the ones set before it in that order.
   */
  lemma OwnerCandidatesSpec(u: User)
    ensures var c := OwnerCandidates(u);
      && |c| <= 4
      && (forall k :: 0 <= k < |c| ==> c[k] != 0)
      && (forall x :: x in c <==> (x != 0
            && (Some(x) == u.personId || Some(x) == u.userId || Some(x) == u.id || Some(x) == u.grantId)))
      && (Truthy(u.personId) ==> c[0] == u.personId.value)
      && (Truthy(u.userId) ==> c[if Truthy(u.personId) then 1 else 0] == u.userId.value)
      && (Truthy(u.id) ==>
            c[(if Truthy(u.personId) then 1 else 0) + (if Truthy(u.userId) then 1 else 0)] == u.id.value)
      && (Truthy(u.grantId) ==> c[|c| - 1] == u.grantId.value)
      && (c == [] <==> !Truthy(u.personId) && !Truthy(u.userId) && !Truthy(u.id) && !Truthy(u.grantId))
  {
    var front := KeepTruthy(u.personId) + KeepTruthy(u.userId);
    assert OwnerCandidates(u) == front + KeepTruthy(u.id) + KeepTruthy(u.grantId);
  }

  // ------------------------------------------------------------ operator

  /** Some address on the person equals `email` ignoring case. */
  predicate HasEmail(p: Person, email: string)
  {
    exists k :: 0 <= k < |p.emails| && EqualsIgnoreCase(p.emails[k], email)
  }

  /**
   * The operator's person id among search results: the first person with an
   * exact (case-insensitive) email match, otherwise the first result.
   */
  function InternalPersonId(persons: seq<Person>, email: string): (r: Option<Id>)
    ensures r.None? <==> persons == []
    ensures (exists i :: 0 <= i < |persons| && HasEmail(persons[i], email)) ==>
      exists i :: (
        && 0 <= i < |persons| && HasEmail(persons[i], email) && r == Some(persons[i].id)
        && forall j :: 0 <= j < i ==> !HasEmail(persons[j], email))
    ensures persons != [] && (forall i :: 0 <= i < |persons| ==> !HasEmail(persons[i], email)) ==>
      r == Some(persons[0].id)
  {
    if persons == [] then None
    else match FindFirst(persons, (p: Person) => HasEmail(p, email))
      case Some(i) => Some(persons[i].id)
      case None => Some(persons[0].id)
  }

  /** `users.find(u => u.id === userId || u.user_id === userId)`. */
  function TeamMember(users: seq<User>, userId: Option<Id>): (r: Option<User>)
    ensures r.Some? ==> exists i :: (
      && 0 <= i < |users| && r.value == users[i]
      && (users[i].id == userId || users[i].userId == userId)
      && forall j :: 0 <= j < i ==> users[j].id != userId && users[j].userId != userId)
    ensures r.None? ==> forall i :: 0 <= i < |users| ==> users[i].id != userId && users[i].userId != userId
  {
    match FindFirst(users, (u: User) => u.id == userId || u.userId == userId)
    case None => None
    case Some(i) => Some(users[i])
  }

  // ------------------------------------------------------------- lists

  /** `f.list_id === parseInt(listId) || f.list_id === listId`. */
  predicate BelongsTo(r: ListRef, listId: string)
  {
    match r
    case NoList => false
    case NumericList(n) => ParseInt(listId) == Some(n)
    case TextList(t) => t == listId
  }

  /** The global fields that belong to the list with id `listId`. */
  function FieldsForList(all: seq<Field>, listId: string): (r: seq<Field>)
    ensures |r| <= |all|
    ensures forall f :: f in r <==> f in all && BelongsTo(f.listId, listId)
  {
    Filter(all, (f: Field) => BelongsTo(f.listId, listId))
  }

  /**
   * A list id saved as the decimal text of a number selects exactly the
   * global fields whose numeric `list_id` is that number (and no string one
   * unless it is that same text).
   */
  lemma FieldsForNumericList(all: seq<Field>, n: int)
    ensures forall f :: f in FieldsForList(all, IntText(n)) <==>
      f in all && (f.listId == NumericList(n) || f.listId == TextList(IntText(n)))
  {
    ParseIntText(n);
  }

  // -------------------------------------------------------------- notes

  /** A field of list `listId` that satisfies `p`. */
  function OnList(listId: string, p: Field -> bool): Field -> bool
  {
    (f: Field) => BelongsTo(f.listId, listId) && p(f)
  }

  /** `find` looks at the first element, and only past it when that one does not qualify. */
  lemma FirstFieldCons(fields: seq<Field>, p: Field -> bool)
    requires fields != []
    ensures FirstField(fields, p) == if p(fields[0]) then Some(fields[0]) else FirstField(fields[1..], p)
  {
    if !p(fields[0]) {
      match FindFirst(fields[1..], p)
      case None =>
      case Some(i) => assert fields[1..][i] == fields[i + 1];
    }
  }

  /**
   * Filtering keeps the order of the global fields: the first field of the
   * list that satisfies `p` is the first global field that both belongs to
   * the list and satisfies `p`.
   */
  lemma {:induction false} FirstFieldOfList(all: seq<Field>, listId: string, p: Field -> bool)
    ensures FirstField(FieldsForList(all, listId), p) == FirstField(all, OnList(listId, p))
  {
    var q := OnList(listId, p);
    if all != [] {
      FirstFieldOfList(all[1..], listId, p);
      FirstFieldCons(all, q);
      var kept := FieldsForList(all, listId);
      if BelongsTo(all[0].listId, listId) {
        assert kept == [all[0]] + FieldsForList(all[1..], listId);
        FirstFieldCons(kept, p);
        assert kept[1..] == FieldsForList(all[1..], listId);
      } else {
        assert kept == FieldsForList(all[1..], listId);
      }
    }
  }

  /** `data.note && data.note.trim()`: the note to post, if any, is the trimmed text. */
  function NoteText(note: string): (r: Option<string>)
    ensures r.None? <==> forall i :: 0 <= i < |note| ==> IsSpace(note[i])
    ensures r.Some? ==> (
      && r.value == Trim(note) && r.value != ""
      && !IsSpace(r.value[0]) && !IsSpace(r.value[|r.value| - 1]))
  {
    var t := Trim(note);
    if t != "" then Some(t) else None
  }

  /** `errorData.message || response.statusText`. */
  function ErrorDetail(message: string, statusText: string): string
  {
    if message != "" then message else statusText
  }

  /** `https://${subdomain || 'app'}.affinity.co/${kind}/${id}`. */
  function EntityUrl(subdomain: string, kind: string, id: Id): string
  {
    "https://" + (if subdomain != "" then subdomain else "app") + ".affinity.co/" + kind + "/" + IntText(id)
  }
}

=== FILE: engine.dfy ===
/**
 * The reconciliation engine of background.js as sequential code against the
 * remote service. A `Client` holds the service's replies and the log of the
 * requests issued so far; every method appends exactly the requests its
 * `Workflow` counterpart lists and returns the value that function computes.
 */
module Engine {
  import opened Wrappers
  import opened Records
  import opened Decisions
  import opened Oracle
  import opened Workflow
  import opened Sequences

  class Client {
    /** The replies the remote service gives. */
    const service: Service
    /** Every request issued so far, oldest first. */
    var log: seq<Call>

    constructor (service: Service)
      ensures this.service == service && log == []
    {
      this.service := service;
      log := [];
    }

    /** Issues one request. */
    method Send(c: Call)
      modifies this
      ensures log == old(log) + [c]
    {
      log := log + [c];
    }

    // ---------------------------------------------------- user resolution

    method FindInternalPersonByEmail(email: string) returns (personId: Option<Id>)
      modifies this
      ensures log == old(log) + InternalPersonRun(service, email).calls
      ensures personId == InternalPersonRun(service, email).out
    {
      Send(SearchPersons(email));
      match service.searchPersons(email)
      case Ok(Some(page)) => personId := InternalPersonId(page.persons, email);
      case _ => personId := None;
    }

    method FindTeamMemberById(userId: Option<Id>) returns (member: Option<User>)
      modifies this
      ensures log == old(log) + TeamMemberRun(service, userId).calls
      ensures member == TeamMemberRun(service, userId).out
    {
      Send(GetUser(userId));
      var reply := service.getUser(userId);
      if reply.Ok? && reply.payload.Some? {
        return Some(reply.payload.value);
      }
      Send(ListUsers);
      match service.listUsers
      case Ok(Some(users)) => member := TeamMember(users, userId);
      case _ => member := None;
    }

    /** Resolves the operator, filling in `personId` step by step; never fails. */
    method GetCurrentUser(userEmail: string) returns (user: Option<User>)
      modifies this
      ensures log == old(log) + CurrentUserRun(service, userEmail).calls
      ensures user == CurrentUserRun(service, userEmail).out
    {
      Send(Whoami);
      var reply := service.whoami;
      if !(reply.Ok? && reply.payload.Some?) {
        return None;
      }
      var u := reply.payload.value;
      ghost var byEmail := EmailLookupRun(service, userEmail, u);
      var email := if userEmail != "" then userEmail else u.email;
      if email != "" {
        var personId := FindInternalPersonByEmail(email);
        if Truthy(personId) {
          u := u.(personId := personId);
        }
      }
      ghost var afterEmail := log;
      assert afterEmail == old(log) + [Whoami] + byEmail.calls && u == byEmail.out;
      if !Truthy(u.personId) {
        var member := FindTeamMemberById(u.userId);
        if member.Some? && Truthy(member.value.personId) {
          u := u.(personId := member.value.personId);
        }
        Assoc4(old(log), [Whoami], byEmail.calls, TeamMemberRun(service, byEmail.out.userId).calls);
      }
      user := Some(u);
    }

    // ------------------------------------------- fields, owner and status

    method GetListFields(listId: string) returns (fields: seq<Field>)
      modifies this
      ensures log == old(log) + ListFieldsRun(service, listId).calls
      ensures fields == ListFieldsRun(service, listId).out
    {
      Send(Call.GetListFields(listId));
      var scoped := service.listFields(listId);
      if scoped.Ok? && scoped.payload.Some? {
        return scoped.payload.value;
      }
      Send(GetAllFields);
      match service.allFields
      case Ok(Some(all)) => fields := FieldsForList(all, listId);
      case _ => fields := [];
    }

    /** Tries the operator's ids as the owner of a list entry, stopping at the first accepted write. */
    method SetListEntryOwner(listId: string, entryId: Id, entityId: Id, user: User)
      modifies this
      ensures log == old(log) + OwnerRun(service, listId, entryId, entityId, user)
    {
      var fields := GetListFields(listId);
      if |fields| == 0 {
        return;
      }
      var field := OwnerField(fields);
      if field.None? {
        return;
      }
      TryOwners(field.value.id, entityId, entryId, OwnerCandidates(user));
      Assoc3(old(log), ListFieldsRun(service, listId).calls,
        OwnerAttempts(service, field.value.id, entityId, entryId, OwnerCandidates(user)));
    }

    /** The owner loop: write each candidate id in turn until the service accepts one. */
    method TryOwners(fieldId: Id, entityId: Id, entryId: Id, candidates: seq<Id>)
      modifies this
      ensures log == old(log) + OwnerAttempts(service, fieldId, entityId, entryId, candidates)
    {
      var i := 0;
      while i < |candidates|
        invariant 0 <= i <= |candidates|
        invariant log + OwnerAttempts(service, fieldId, entityId, entryId, candidates[i..])
          == old(log) + OwnerAttempts(service, fieldId, entityId, entryId, candidates)
      {
        var request := OwnerWrite(fieldId, entityId, entryId, candidates[i]);
        assert candidates[i..][1..] == candidates[i + 1..];
        Send(request);
        if service.accepts(request) {
          return;
        }
        i := i + 1;
      }
    }

    method SetStatus(listId: string, entryId: Id, entityId: Id, status: string)
      modifies this
      ensures log == old(log) + StatusRun(service, listId, entryId, entityId, status)
    {
      var fields := GetListFields(listId);
      var field := StatusField(fields);
      if field.None? {
        return;
      }
      var value := StatusValue(field.value, status);
      Send(PostFieldValue(field.value.id, entityId, Some(entryId), value));
    }

    // ----------------------------------------------------------- entities

    method CreateOrganization(name: string, domain: string) returns (org: Result<Org, Failure>)
      modifies this
      ensures log == old(log) + CreateOrgRun(service, name, domain).calls
      ensures org == CreateOrgRun(service, name, domain).out
    {
      var body := CreateOrg(name, None);
      if domain != "" {
        body := body.(domain := Some(domain));
      }
      Send(body);
      org := Fatal(service.createOrg(name, body.domain), "create organization");
    }

    method FindPersonByLinkedIn(url: Option<string>) returns (person: Option<Person>)
      modifies this
      ensures log == old(log) + [SearchPersons(LinkedInTerm(url))]
      ensures person == ExistingPerson(service.searchPersons(LinkedInTerm(url)))
    {
      var term := LinkedInTerm(url);
      Send(SearchPersons(term));
      var reply := service.searchPersons(term);
      person := None;
      if reply.Ok? && reply.payload.Some? {
        var page := reply.payload.value;
        if page.wrapped && |page.persons| > 0 {
          person := Some(page.persons[0]);
        }
      }
    }

    method AddLinkedInField(personId: Id, url: Option<string>)
      modifies this
      ensures log == old(log) + LinkedInFieldCalls(service, personId, url)
    {
      Send(GetPersonFields);
      var reply := service.personFields;
      if reply.Ok? && reply.payload.Some? {
        var field := LinkedInField(reply.payload.value);
        if field.Some? {
          var value := if url.Some? then TextValue(url.value) else NoValue;
          Send(PostFieldValue(field.value.id, personId, None, value));
        }
      }
    }

    method CreatePerson(first: string, last: string, url: Option<string>) returns (person: Result<Person, Failure>)
      modifies this
      ensures log == old(log) + CreatePersonRun(service, first, last, url).calls
      ensures person == CreatePersonRun(service, first, last, url).out
    {
      var existing := FindPersonByLinkedIn(url);
      if existing.Some? {
        return Success(existing.value);
      }
      Send(Call.CreatePerson(first, last));
      ghost var searched := [SearchPersons(LinkedInTerm(url)), Call.CreatePerson(first, last)];
      assert log == old(log) + searched;
      person := Fatal(service.createPerson(first, last), "create person");
      if person.Success? {
        AddLinkedInField(person.value.id, url);
        Assoc3(old(log), searched, LinkedInFieldCalls(service, person.value.id, url));
      }
    }

    method LinkPersonToOrganization(personId: Id, orgId: Id)
      modifies this
      ensures log == old(log) + LinkCalls(personId, orgId)
    {
      Send(SetOrgPersons(orgId, [personId]));
      Send(SetPersonOrgs(personId, [orgId]));
      Send(CreateRelationship(personId, orgId, RelationshipStrength));
    }

    method AddToList(listId: string, entityId: Id, entityType: int) returns (entry: Result<ListEntry, Failure>)
      modifies this
      ensures log == old(log) + AddToListRun(service, listId, entityId, entityType).calls
      ensures entry == AddToListRun(service, listId, entityId, entityType).out
    {
      Send(AddListEntry(listId, entityId, entityType));
      entry := Fatal(service.addListEntry(listId, entityId, entityType), "add to list");
    }

    /** Posts the trimmed note, if there is one, on the person or on the organization. */
    method AddNote(note: string, entityId: Id, scope: NoteScope)
      modifies this
      ensures log == old(log) + NoteCalls(note, entityId, scope)
    {
      var text := NoteText(note);
      if text.Some? {
        Send(PostNote(text.value, scope, entityId));
      }
    }

    // -------------------------------------------------------------- flows

    /** The deal-list steps after the list entry: the owner when the operator is known, then the note. */
    method FollowUpOrganization(listId: string, entryId: Id, orgId: Id, user: Option<User>, note: string)
      modifies this
      ensures log == old(log) + OrgFollowUps(service, listId, entryId, orgId, user, note)
    {
      if user.Some? {
        SetListEntryOwner(listId, entryId, orgId, user.value);
      }
      ghost var afterOwner := log;
      AddNote(note, orgId, OrgScope);
      ghost var o := OwnerStep(service, listId, entryId, orgId, user);
      ghost var n := NoteCalls(note, orgId, OrgScope);
      assert afterOwner == old(log) + o;
      assert log == afterOwner + n;
      Assoc3(old(log), o, n);
    }

    /** The deal-list steps once the organization exists: list entry, owner, note, result. */
    method PlaceOrganization(st: Settings, note: string, user: Option<User>, org: Org, person: Option<Person>)
      returns (outcome: Outcome)
      modifies this
      ensures log == old(log) + PlaceOrgRun(service, st, note, user, org, person).calls
      ensures outcome == PlaceOrgRun(service, st, note, user, org, person).out
    {
      var entry := AddToList(st.listId, org.id, OrgEntityType);
      if entry.Failure? {
        return Failed(entry.error);
      }
      FollowUpOrganization(st.listId, entry.value.id, org.id, user, note);
      Assoc3(old(log), AddToListRun(service, st.listId, org.id, OrgEntityType).calls,
        OrgFollowUps(service, st.listId, entry.value.id, org.id, user, note));
      outcome := Added(AddResult(Some(org), person, entry.value, user, EntityUrl(st.subdomain, "companies", org.id)));
    }

    /** The records of the deal-list flow: organization, and from a profile the person and the links. */
    method CreateDealRecords(src: Source) returns (records: Result<DealRecords, Failure>)
      modifies this
      ensures log == old(log) + DealRecordsRun(service, src).calls
      ensures records == DealRecordsRun(service, src).out
    {
      match src {
        case LinkedInProfile(fullName, url) =>
          var name := SplitName(fullName);
          var org := CreateOrganization(OrgName(fullName), "");
          if org.Failure? {
            return Failure(org.error);
          }
          var person := CreatePerson(name.first, name.last, Some(url));
          if person.Failure? {
            return Failure(person.error);
          }
          LinkPersonToOrganization(person.value.id, org.value.id);
          records := Success(DealRecords(org.value, Some(person.value)));
        case Website(companyName, domain) =>
          var org := CreateOrganization(companyName, domain);
          if org.Failure? {
            return Failure(org.error);
          }
          records := Success(DealRecords(org.value, None));
      }
    }

    /** `handleMasterDealList`: the records, then the organization's list entry, owner and note. */
    method HandleMasterDealList(st: Settings, data: InputRecord, user: Option<User>) returns (outcome: Outcome)
      modifies this
      ensures log == old(log) + MasterDealRun(service, st, data, user).calls
      ensures outcome == MasterDealRun(service, st, data, user).out
    {
      var records := CreateDealRecords(data.source);
      if records.Failure? {
        return Failed(records.error);
      }
      outcome := PlaceOrganization(st, data.note, user, records.value.org, records.value.person);
      Assoc3(old(log), DealRecordsRun(service, data.source).calls,
        PlaceOrgRun(service, st, data.note, user, records.value.org, records.value.person).calls);
    }

    /** The people-list steps after the list entry: the owner when the operator is known, the status, the note. */
    method FollowUpPerson(listId: string, entryId: Id, personId: Id, user: Option<User>, note: string)
      modifies this
      ensures log == old(log) + PersonFollowUps(service, listId, entryId, personId, user, note)
    {
      if user.Some? {
        SetListEntryOwner(listId, entryId, personId, user.value);
      }
      ghost var afterOwner := log;
      SetStatus(listId, entryId, personId, StatusToSet);
      ghost var afterStatus := log;
      AddNote(note, personId, PersonScope);
      ghost var o := OwnerStep(service, listId, entryId, personId, user);
      ghost var t := StatusRun(service, listId, entryId, personId, StatusToSet);
      ghost var n := NoteCalls(note, personId, PersonScope);
      assert afterOwner == old(log) + o;
      assert afterStatus == afterOwner + t;
      assert log == afterStatus + n;
      Assoc4(old(log), o, t, n);
    }

    /** The people-list steps once the person exists: list entry, owner, status, note, result. */
    method PlacePerson(st: Settings, note: string, user: Option<User>, p: Person) returns (outcome: Outcome)
      modifies this
      ensures log == old(log) + PlacePersonRun(service, st, note, user, p).calls
      ensures outcome == PlacePersonRun(service, st, note, user, p).out
    {
      var entry := AddToList(st.peopleListId, p.id, PersonEntityType);
      if entry.Failure? {
        return Failed(entry.error);
      }
      FollowUpPerson(st.peopleListId, entry.value.id, p.id, user, note);
      Assoc3(old(log), AddToListRun(service, st.peopleListId, p.id, PersonEntityType).calls,
        PersonFollowUps(service, st.peopleListId, entry.value.id, p.id, user, note));
      outcome := Added(AddResult(None, Some(p), entry.value, user, EntityUrl(st.subdomain, "persons", p.id)));
    }

    /** `handleInterestingPeople`: the person, then its place on the people list. */
    method HandleInterestingPeople(st: Settings, data: InputRecord, user: Option<User>) returns (outcome: Outcome)
      modifies this
      ensures log == old(log) + InterestingPeopleRun(service, st, data, user).calls
      ensures outcome == InterestingPeopleRun(service, st, data, user).out
    {
      if st.peopleListId == "" {
        return Failed(MissingConfig(PeopleListMessage));
      }
      var first: string, last: string, url: Option<string>;
      match data.source {
        case LinkedInProfile(fullName, u) =>
          var name := SplitName(fullName);
          first, last, url := name.first, name.last, Some(u);
        case Website(companyName, _) =>
          first, last, url := if companyName != "" then companyName else "Unknown", "", None;
      }
      assert PeopleFlowName(data.source) == (PersonName(first, last), url);
      var person := CreatePerson(first, last, url);
      if person.Failure? {
        return Failed(person.error);
      }
      outcome := PlacePerson(st, data.note, user, person.value);
      Assoc3(old(log), CreatePersonRun(service, first, last, url).calls,
        PlacePersonRun(service, st, data.note, user, person.value).calls);
    }

    method HandleAddToAffinity(st: Settings, data: InputRecord) returns (outcome: Outcome)
      modifies this
      ensures log == old(log) + AddRun(service, st, data).calls
      ensures outcome == AddRun(service, st, data).out
    {
      if st.apiKey == "" || st.listId == "" {
        return Failed(MissingConfig(ConfigMessage));
      }
      var user := GetCurrentUser(st.userEmail);
      if data.target == InterestingPeople {
        outcome := HandleInterestingPeople(st, data, user);
      } else {
        outcome := HandleMasterDealList(st, data, user);
      }
      Assoc3(old(log), CurrentUserRun(service, st.userEmail).calls,
        if data.target == InterestingPeople then InterestingPeopleRun(service, st, data, user).calls
        else MasterDealRun(service, st, data, user).calls);
    }

    method CheckForDuplicate(st: Settings, src: Source) returns (result: DuplicateCheck)
      modifies this
      ensures log == old(log) + DuplicateRun(service, st, src).calls
      ensures result == DuplicateRun(service, st, src).out
    {
      if st.apiKey == "" {
        return NoDuplicate;
      }
      var term := SearchTerm(src);
      Send(SearchOrgs(term));
      result := NoDuplicate;
      var reply := service.searchOrgs(term);
      if reply.Ok? && reply.payload.Some? {
        var found := FindDuplicate(src, reply.payload.value);
        if found.Some? {
          result := Duplicate(found.value, EntityUrl(st.subdomain, "companies", found.value.id));
        }
      }
    }
  }
}

=== FILE: oracle.dfy ===
/**
 * The remote relationship-management service, seen from the engine: every
 * request the engine can issue (a `Call`), what a reply can look like, and a
 * `Service` value that fixes the reply to every request. The transport
 * (`fetch`, the Basic-auth header, JSON encoding) is not modelled; a reply is
 * what the engine reads out of it.
 */
module Oracle {
  import opened Wrappers
  import opened Records

  /**
   * What an awaited `fetch` gives the engine: it rejects (`NetworkError`), or
   * answers with a 2xx status and a body that does or does not parse as the
   * expected JSON (`Ok`), or answers with another status, whose error body may
   * carry a `message` ("" when it carries none).
   */
  datatype Reply<T> =
    | NetworkError
    | Ok(payload: Option<T>)
    | Rejected(statusText: string, message: string)

  /** A person search body: `{persons: [...]}` when `wrapped`, a bare array otherwise. */
  datatype PersonPage = PersonPage(persons: seq<Person>, wrapped: bool)

  /** One request, with what the engine puts in its path, query and body. */
  datatype Call =
    | Whoami                                                  // GET /whoami
    | SearchPersons(term: string)                             // GET /persons?term=
    | GetUser(userId: Option<Id>)                             // GET /users/{id}
    | ListUsers                                               // GET /users
    | GetListFields(listId: string)                           // GET /lists/{id}/fields
    | GetAllFields                                            // GET /fields
    | GetPersonFields                                         // GET /persons/fields
    | SearchOrgs(term: string)                                // GET /organizations?term=
    | CreateOrg(name: string, domain: Option<string>)         // POST /organizations
    | CreatePerson(firstName: string, lastName: string)       // POST /persons
    | SetOrgPersons(orgId: Id, personIds: seq<Id>)            // PUT /organizations/{id}
    | SetPersonOrgs(personId: Id, orgIds: seq<Id>)            // PUT /persons/{id}
    | CreateRelationship(internalId: Id, externalId: Id, strength: int)  // POST /relationship-strengths
    | PostFieldValue(fieldId: Id, entityId: Id, listEntryId: Option<Id>, value: FieldValue)  // POST /field-values
    | PostNote(content: string, scope: NoteScope, entityId: Id)          // POST /notes
    | AddListEntry(listId: string, entityId: Id, entityType: int)        // POST /lists/{id}/list-entries

  /** GET requests read; every other request changes remote state. */
  predicate IsWrite(c: Call)
  {
    c.CreateOrg? || c.CreatePerson? || c.SetOrgPersons? || c.SetPersonOrgs? || c.CreateRelationship?
    || c.PostFieldValue? || c.PostNote? || c.AddListEntry?
  }

  /**
   * The remote service as an oracle: the reply it gives to each request.
   * Requests whose reply the engine only inspects for success (field values,
   * notes, the three linking calls) are answered by `accepts`: true for a 2xx
   * status, false for any other status or a rejected `fetch`.
   */
  datatype Service = Service(
    whoami: Reply<User>,
    searchPersons: string -> Reply<PersonPage>,
    getUser: Option<Id> -> Reply<User>,
    listUsers: Reply<seq<User>>,
    listFields: string -> Reply<seq<Field>>,
    allFields: Reply<seq<Field>>,
    personFields: Reply<seq<Field>>,
    searchOrgs: string -> Reply<seq<Org>>,
    createOrg: (string, Option<string>) -> Reply<Org>,
    createPerson: (string, string) -> Reply<Person>,
    addListEntry: (string, Id, int) -> Reply<ListEntry>,
    accepts: Call -> bool)
}

=== FILE: outcomes.dfy ===
/**
 * What a finished run of `handleAddToAffinity` amounts to. A successful run
 * has put exactly the record it reports on the list, and every list-entry
 * field value and note it wrote belongs to that entry and that record. A
 * failed run ends at the request that failed, and that request's reply gives
 * the error. The best-effort steps (owner, status, LinkedIn field, links,
 * notes) never decide the result.
 */
module Outcomes {
  import opened Wrappers
  import opened Records
  import opened Decisions
  import opened Oracle
  import opened Workflow
  import opened Properties
  import opened Pipeline
  import opened Sequences

  // ------------------------------------------------------------ attachment

  /** No list entry, no list-entry field value and no note among `calls`. */
  predicate Detached(calls: seq<Call>)
  {
    forall c :: c in calls ==> !c.AddListEntry? && !(c.PostFieldValue? && c.listEntryId.Some?) && !c.PostNote?
  }

  /**
   * Every list entry among `calls` puts `entityId` of `entityType` on
   * `listId`; every list-entry field value is written to entry `entryId` of
   * `entityId`; every note is attached to `entityId` through `scope`.
   */
  predicate Attached(calls: seq<Call>, listId: string, entryId: Id, entityId: Id, entityType: int, scope: NoteScope)
  {
    forall c :: c in calls ==>
      && (c.AddListEntry? ==> c == AddListEntry(listId, entityId, entityType))
      && (c.PostFieldValue? && c.listEntryId.Some? ==> c.listEntryId == Some(entryId) && c.entityId == entityId)
      && (c.PostNote? ==> c.entityId == entityId && c.scope == scope)
  }

  /** The failure the service's reply to a fatal request gives; None for a success or a best-effort request. */
  function FatalFailure(s: Service, c: Call): Option<Failure>
  {
    match c
    case CreateOrg(name, domain) => FailureOf(Fatal(s.createOrg(name, domain), "create organization"))
    case CreatePerson(first, last) => FailureOf(Fatal(s.createPerson(first, last), "create person"))
    case AddListEntry(listId, entityId, entityType) =>
      FailureOf(Fatal(s.addListEntry(listId, entityId, entityType), "add to list"))
    case _ => None
  }

  function FailureOf<T>(r: Result<T, Failure>): Option<Failure>
  {
    if r.Failure? then Some(r.error) else None
  }

  /** Creating records, linking them and writing profile fields attaches nothing to a list entry. */
  lemma StageOneDetached(calls: seq<Call>)
    requires WritesIn(calls, 1, 1)
    ensures Detached(calls)
  {
    forall c | c in calls
      ensures !c.AddListEntry? && !(c.PostFieldValue? && c.listEntryId.Some?) && !c.PostNote?
    {
      if IsWrite(c) {
        assert Stage(c) == 1;
      }
    }
  }

  lemma DetachedConcat(a: seq<Call>, b: seq<Call>, listId: string, entryId: Id, entityId: Id, entityType: int, scope: NoteScope)
    requires Detached(a) && Attached(b, listId, entryId, entityId, entityType, scope)
    ensures Attached(a + b, listId, entryId, entityId, entityType, scope)
  {
    forall c | c in a + b
      ensures c in a || c in b
    {
    }
  }

  lemma AttachedConcat(a: seq<Call>, b: seq<Call>, listId: string, entryId: Id, entityId: Id, entityType: int, scope: NoteScope)
    requires Attached(a, listId, entryId, entityId, entityType, scope)
    requires Attached(b, listId, entryId, entityId, entityType, scope)
    ensures Attached(a + b, listId, entryId, entityId, entityType, scope)
  {
    forall c | c in a + b
      ensures c in a || c in b
    {
    }
  }

  /** Owner writes go to the given entry of the given record. */
  lemma OwnerAttached(s: Service, listId: string, entryId: Id, entityId: Id, user: Option<User>,
                      entityType: int, scope: NoteScope)
    ensures Attached(OwnerStep(s, listId, entryId, entityId, user), listId, entryId, entityId, entityType, scope)
  {
    if user.Some? {
      OwnerRunSpec(s, listId, entryId, entityId, user.value);
    }
  }

  /** The note, if any, is posted on the given record through the given scope. */
  lemma NoteOn(note: string, entityId: Id, scope: NoteScope)
    ensures forall c :: c in NoteCalls(note, entityId, scope) ==> c.PostNote? && c.entityId == entityId && c.scope == scope
  {
    match NoteText(note)
    case Some(t) =>
      assert NoteCalls(note, entityId, scope) == [PostNote(t, scope, entityId)];
    case None =>
      assert NoteCalls(note, entityId, scope) == [];
  }

  /** What follows an organization's list entry stays on that entry and that organization. */
  lemma OrgFollowUpsAttached(s: Service, listId: string, entryId: Id, orgId: Id, user: Option<User>, note: string)
    ensures Attached(OrgFollowUps(s, listId, entryId, orgId, user, note), listId, entryId, orgId, OrgEntityType, OrgScope)
  {
    OwnerAttached(s, listId, entryId, orgId, user, OrgEntityType, OrgScope);
    NoteOn(note, orgId, OrgScope);
    AttachedConcat(OwnerStep(s, listId, entryId, orgId, user), NoteCalls(note, orgId, OrgScope),
                   listId, entryId, orgId, OrgEntityType, OrgScope);
  }

  /** What follows a person's list entry stays on that entry and that person. */
  lemma PersonFollowUpsAttached(s: Service, listId: string, entryId: Id, personId: Id, user: Option<User>, note: string)
    ensures Attached(PersonFollowUps(s, listId, entryId, personId, user, note),
                     listId, entryId, personId, PersonEntityType, PersonScope)
  {
    var owner := OwnerStep(s, listId, entryId, personId, user);
    var status := StatusRun(s, listId, entryId, personId, StatusToSet);
    OwnerAttached(s, listId, entryId, personId, user, PersonEntityType, PersonScope);
    StatusRunSpec(s, listId, entryId, personId, StatusToSet);
    NoteOn(note, personId, PersonScope);
    AttachedConcat(owner, status, listId, entryId, personId, PersonEntityType, PersonScope);
    AttachedConcat(owner + status, NoteCalls(note, personId, PersonScope),
                   listId, entryId, personId, PersonEntityType, PersonScope);
  }

  // ------------------------------------------------------------- success

  /**
   * Placing an organization succeeds exactly when the service accepted its
   * list entry; the result then reports that entry, the organization, the
   * person passed along, the operator and the organization's link, and the
   * run's writes after the entry stay on it.
   */
  lemma PlaceOrgAdded(s: Service, st: Settings, note: string, user: Option<User>, org: Org, person: Option<Person>)
    ensures var r := PlaceOrgRun(s, st, note, user, org, person);
      var reply := s.addListEntry(st.listId, org.id, OrgEntityType);
      && r.calls[0] == AddListEntry(st.listId, org.id, OrgEntityType)
      && (r.out.Added? <==> reply.Ok? && reply.payload.Some?)
      && (r.out.Added? ==>
            var res := r.out.result;
            && reply == Ok(Some(res.listEntry))
            && res.organization == Some(org) && res.person == person && res.owner == user
            && res.url == EntityUrl(st.subdomain, "companies", org.id)
            && Attached(r.calls, st.listId, res.listEntry.id, org.id, OrgEntityType, OrgScope))
  {
    var entry := AddToListRun(s, st.listId, org.id, OrgEntityType);
    if entry.out.Success? {
      OrgFollowUpsAttached(s, st.listId, entry.out.value.id, org.id, user, note);
      AttachedConcat(entry.calls, OrgFollowUps(s, st.listId, entry.out.value.id, org.id, user, note),
                     st.listId, entry.out.value.id, org.id, OrgEntityType, OrgScope);
    }
  }

  /** The same for a person placed on the people list, with its status and the person's link. */
  lemma PlacePersonAdded(s: Service, st: Settings, note: string, user: Option<User>, p: Person)
    ensures var r := PlacePersonRun(s, st, note, user, p);
      var reply := s.addListEntry(st.peopleListId, p.id, PersonEntityType);
      && r.calls[0] == AddListEntry(st.peopleListId, p.id, PersonEntityType)
      && (r.out.Added? <==> reply.Ok? && reply.payload.Some?)
      && (r.out.Added? ==>
            var res := r.out.result;
            && reply == Ok(Some(res.listEntry))
            && res.organization == None && res.person == Some(p) && res.owner == user
            && res.url == EntityUrl(st.subdomain, "persons", p.id)
            && Attached(r.calls, st.peopleListId, res.listEntry.id, p.id, PersonEntityType, PersonScope))
  {
    var entry := AddToListRun(s, st.peopleListId, p.id, PersonEntityType);
    if entry.out.Success? {
      PersonFollowUpsAttached(s, st.peopleListId, entry.out.value.id, p.id, user, note);
      AttachedConcat(entry.calls, PersonFollowUps(s, st.peopleListId, entry.out.value.id, p.id, user, note),
                     st.peopleListId, entry.out.value.id, p.id, PersonEntityType, PersonScope);
    }
  }

  /** The calls after an organization exists create no record, and attach nothing but to its entry. */
  lemma OrgTail(s: Service, st: Settings, note: string, user: Option<User>, org: Org, person: Option<Person>,
                before: seq<Call>)
    requires Detached(before)
    requires PlaceOrgRun(s, st, note, user, org, person).out.Added?
    ensures var rest := PlaceOrgRun(s, st, note, user, org, person);
      && (forall c :: c in rest.calls ==> !c.CreateOrg? && !c.CreatePerson?)
      && Attached(before + rest.calls, st.listId, rest.out.result.listEntry.id, org.id, OrgEntityType, OrgScope)
  {
    var rest := PlaceOrgRun(s, st, note, user, org, person);
    PlaceOrgAdded(s, st, note, user, org, person);
    PlaceOrgOrdered(s, st, note, user, org, person);
    forall c | c in rest.calls
      ensures !c.CreateOrg? && !c.CreatePerson?
    {
      if IsWrite(c) {
        assert Stage(c) >= 2;
      }
    }
    DetachedConcat(before, rest.calls, st.listId, rest.out.result.listEntry.id, org.id, OrgEntityType, OrgScope);
  }

  /**
   * From a website the records step issues only the organization request,
   * with the scraped name and, when there is one, the domain; it succeeds
   * exactly when the service returns the organization.
   */
  lemma WebsiteRecords(s: Service, companyName: string, domain: string)
    ensures var r := DealRecordsRun(s, Website(companyName, domain));
      var reply := s.createOrg(companyName, if domain != "" then Some(domain) else None);
      && r.calls == [OrgRequest(companyName, domain)]
      && (r.out.Success? <==> reply.Ok? && reply.payload.Some?)
      && (r.out.Success? ==> r.out.value == DealRecords(reply.payload.value, None))
  {
  }

  /**
   * From a LinkedIn profile the records step first requests the "Stealth_"
   * organization without a domain; it succeeds exactly when that organization
   * and then the person are obtained, and it ends by linking the two.
   */
  lemma ProfileRecords(s: Service, fullName: string, url: string)
    ensures var r := DealRecordsRun(s, LinkedInProfile(fullName, url));
      var reply := s.createOrg(OrgName(fullName), None);
      var name := SplitName(fullName);
      var person := CreatePersonRun(s, name.first, name.last, Some(url));
      && r.calls[0] == CreateOrg(OrgName(fullName), None)
      && (r.out.Success? <==> reply.Ok? && reply.payload.Some? && person.out.Success?)
      && (r.out.Success? ==>
            && r.out.value == DealRecords(reply.payload.value, Some(person.out.value))
            && |r.calls| >= 3
            && r.calls[|r.calls| - 3..] == LinkCalls(person.out.value.id, reply.payload.value.id))
  {
  }

  /**
   * A successful deal-list run reports the records its first step created,
   * the list entry the service returned for the organization, the operator
   * and the organization's link; every list-entry write and note goes to
   * that entry and organization.
   */
  lemma DealAdded(s: Service, st: Settings, data: InputRecord, user: Option<User>)
    requires MasterDealRun(s, st, data, user).out.Added?
    ensures var r := MasterDealRun(s, st, data, user);
      var res := r.out.result;
      var records := DealRecordsRun(s, data.source);
      && records.out.Success?
      && res.organization == Some(records.out.value.org) && res.person == records.out.value.person
      && res.owner == user
      && s.addListEntry(st.listId, records.out.value.org.id, OrgEntityType) == Ok(Some(res.listEntry))
      && res.url == EntityUrl(st.subdomain, "companies", records.out.value.org.id)
      && Attached(r.calls, st.listId, res.listEntry.id, records.out.value.org.id, OrgEntityType, OrgScope)
  {
    var records := DealRecordsRun(s, data.source);
    var d := records.out.value;
    var rest := PlaceOrgRun(s, st, data.note, user, d.org, d.person);
    PlaceOrgAdded(s, st, data.note, user, d.org, d.person);
    DealRecordsStage(s, data.source);
    StageOneDetached(records.calls);
    OrgTail(s, st, data.note, user, d.org, d.person, records.calls);
  }

  /** The deal-list flow creates records in its first step only. */
  lemma DealCreations(s: Service, st: Settings, data: InputRecord, user: Option<User>)
    ensures forall c :: c in MasterDealRun(s, st, data, user).calls && (c.CreateOrg? || c.CreatePerson?) ==>
      c in DealRecordsRun(s, data.source).calls
  {
    var records := DealRecordsRun(s, data.source);
    if records.out.Success? {
      var d := records.out.value;
      var rest := PlaceOrgRun(s, st, data.note, user, d.org, d.person);
      PlaceOrgOrdered(s, st, data.note, user, d.org, d.person);
      forall c | c in records.calls + rest.calls && (c.CreateOrg? || c.CreatePerson?)
        ensures c in records.calls
      {
      }
    }
  }

  /** From a website, a successful run reports the organization the service created, and no person. */
  lemma WebsiteDealAdded(s: Service, st: Settings, data: InputRecord, user: Option<User>)
    requires data.source.Website?
    requires MasterDealRun(s, st, data, user).out.Added?
    ensures var request := OrgRequest(data.source.companyName, data.source.domain);
      var res := MasterDealRun(s, st, data, user).out.result;
      res.person.None? && s.createOrg(request.name, request.domain) == Ok(res.organization)
  {
    WebsiteRecords(s, data.source.companyName, data.source.domain);
    DealAdded(s, st, data, user);
  }

  /** From a website, the deal-list flow creates one record at most: the organization as scraped. */
  lemma WebsiteCreatesOrgOnly(s: Service, st: Settings, data: InputRecord, user: Option<User>)
    requires data.source.Website?
    ensures forall c :: c in MasterDealRun(s, st, data, user).calls && (c.CreateOrg? || c.CreatePerson?) ==>
      c == OrgRequest(data.source.companyName, data.source.domain)
  {
    WebsiteRecords(s, data.source.companyName, data.source.domain);
    DealCreations(s, st, data, user);
  }

  /** Resolving a person creates no organization and attaches nothing to a list entry. */
  lemma PersonRecords(s: Service, first: string, last: string, url: Option<string>)
    ensures var calls := CreatePersonRun(s, first, last, url).calls;
      Detached(calls) && forall c :: c in calls ==> !c.CreateOrg?
  {
    var calls := CreatePersonRun(s, first, last, url).calls;
    PersonStage(s, first, last, url);
    StageOneDetached(calls);
    forall c | c in calls && IsWrite(c)
      ensures !c.CreateOrg?
    {
      PersonReuse(s, first, last, url);
      var k :| 0 <= k < |calls| && calls[k] == c;
      if k >= 2 {
        assert c in calls[2..];
      }
    }
  }

  /** The calls after a person exists create no organization, and attach nothing but to its entry. */
  lemma PersonTail(s: Service, st: Settings, note: string, user: Option<User>, p: Person, before: seq<Call>)
    requires Detached(before) && forall c :: c in before ==> !c.CreateOrg?
    requires PlacePersonRun(s, st, note, user, p).out.Added?
    ensures var rest := PlacePersonRun(s, st, note, user, p);
      && (forall c :: c in before + rest.calls ==> !c.CreateOrg?)
      && Attached(before + rest.calls, st.peopleListId, rest.out.result.listEntry.id, p.id, PersonEntityType, PersonScope)
  {
    var rest := PlacePersonRun(s, st, note, user, p);
    PlacePersonAdded(s, st, note, user, p);
    PlacePersonOrdered(s, st, note, user, p);
    forall c | c in before + rest.calls
      ensures !c.CreateOrg?
    {
      if c !in before && IsWrite(c) {
        assert c in rest.calls;
        assert Stage(c) >= 2;
      }
    }
    DetachedConcat(before, rest.calls, st.peopleListId, rest.out.result.listEntry.id, p.id, PersonEntityType, PersonScope);
  }

  /**
   * A successful people-list run creates no organization, resolves the
   * person, and puts that person on the people list.
   */
  lemma PeopleAdded(s: Service, st: Settings, data: InputRecord, user: Option<User>)
    requires InterestingPeopleRun(s, st, data, user).out.Added?
    ensures var r := InterestingPeopleRun(s, st, data, user);
      var res := r.out.result;
      var who := PeopleFlowName(data.source);
      && st.peopleListId != ""
      && res.organization.None? && res.person.Some?
      && CreatePersonRun(s, who.0.first, who.0.last, who.1).out == Success(res.person.value)
      && s.addListEntry(st.peopleListId, res.person.value.id, PersonEntityType) == Ok(Some(res.listEntry))
      && res.url == EntityUrl(st.subdomain, "persons", res.person.value.id)
      && (forall c :: c in r.calls ==> !c.CreateOrg?)
      && Attached(r.calls, st.peopleListId, res.listEntry.id, res.person.value.id, PersonEntityType, PersonScope)
  {
    var who := PeopleFlowName(data.source);
    var person := CreatePersonRun(s, who.0.first, who.0.last, who.1);
    var rest := PlacePersonRun(s, st, data.note, user, person.out.value);
    assert InterestingPeopleRun(s, st, data, user) == Run(rest.out, person.calls + rest.calls);
    PlacePersonAdded(s, st, data.note, user, person.out.value);
    PersonRecords(s, who.0.first, who.0.last, who.1);
    PersonTail(s, st, data.note, user, person.out.value, person.calls);
  }

  // ------------------------------------------------------------- failure

  /** Every fatal request among `calls` was answered with a usable body. */
  predicate FatalOk(s: Service, calls: seq<Call>)
  {
    forall c :: c in calls ==> FatalFailure(s, c).None?
  }

  /** `calls` ends with a fatal request whose reply gives `e`, and every earlier fatal request succeeded. */
  predicate StopsAt(s: Service, calls: seq<Call>, e: Failure)
  {
    |calls| > 0 && FatalOk(s, calls[..|calls| - 1]) && FatalFailure(s, calls[|calls| - 1]) == Some(e)
  }

  /** A step that either succeeds with every fatal request answered, or stops at the one that failed. */
  predicate Settled<T>(s: Service, r: Run<Result<T, Failure>>)
  {
    (r.out.Success? ==> FatalOk(s, r.calls)) && (r.out.Failure? ==> StopsAt(s, r.calls, r.out.error))
  }

  /** The same for a flow, whose missing-configuration failures come from no request. */
  predicate SettledOutcome(s: Service, r: Run<Outcome>)
  {
    && (r.out.Added? ==> FatalOk(s, r.calls))
    && (r.out.Failed? && !r.out.failure.MissingConfig? ==> StopsAt(s, r.calls, r.out.failure))
  }

  lemma FatalOkConcat(s: Service, a: seq<Call>, b: seq<Call>)
    requires FatalOk(s, a) && FatalOk(s, b)
    ensures FatalOk(s, a + b)
  {
    forall c | c in a + b
      ensures c in a || c in b
    {
    }
  }

  lemma StopsAtAfter(s: Service, a: seq<Call>, b: seq<Call>, e: Failure)
    requires FatalOk(s, a) && StopsAt(s, b, e)
    ensures StopsAt(s, a + b, e)
  {
    assert (a + b)[..|a + b| - 1] == a + b[..|b| - 1];
    FatalOkConcat(s, a, b[..|b| - 1]);
  }

  lemma CreateOrgSettled(s: Service, name: string, domain: string)
    ensures Settled(s, CreateOrgRun(s, name, domain))
  {
    assert CreateOrgRun(s, name, domain).calls[..0] == [];
  }

  lemma PersonSettled(s: Service, first: string, last: string, url: Option<string>)
    ensures Settled(s, CreatePersonRun(s, first, last, url))
  {
    var term := LinkedInTerm(url);
    if ExistingPerson(s.searchPersons(term)).None? {
      var r := CreatePersonRun(s, first, last, url);
      if r.out.Failure? {
        assert r.calls[..1] == [SearchPersons(term)];
      } else {
        assert r.calls == [SearchPersons(term), CreatePerson(first, last)]
          + LinkedInFieldCalls(s, r.out.value.id, url);
      }
    }
  }

  lemma DealRecordsSettled(s: Service, src: Source)
    ensures Settled(s, DealRecordsRun(s, src))
  {
    match src
    case LinkedInProfile(fullName, url) =>
      var name := SplitName(fullName);
      var org := CreateOrgRun(s, OrgName(fullName), "");
      CreateOrgSettled(s, OrgName(fullName), "");
      if org.out.Success? {
        var person := CreatePersonRun(s, name.first, name.last, Some(url));
        PersonSettled(s, name.first, name.last, Some(url));
        if person.out.Failure? {
          StopsAtAfter(s, org.calls, person.calls, person.out.error);
        } else {
          FatalOkConcat(s, org.calls, person.calls);
          FatalOkConcat(s, org.calls + person.calls, LinkCalls(person.out.value.id, org.out.value.id));
        }
      }
    case Website(companyName, domain) =>
      CreateOrgSettled(s, companyName, domain);
  }

  /** Writes after a list entry are best-effort: none of them is a fatal request. */
  lemma FollowUpsNotFatal(s: Service, calls: seq<Call>)
    requires WritesIn(calls, 3, 4)
    ensures FatalOk(s, calls)
  {
    forall c | c in calls
      ensures FatalFailure(s, c).None?
    {
      if IsWrite(c) {
        assert Stage(c) >= 3;
      }
    }
  }

  lemma AddToListSettled(s: Service, listId: string, entityId: Id, entityType: int)
    ensures Settled(s, AddToListRun(s, listId, entityId, entityType))
  {
    assert AddToListRun(s, listId, entityId, entityType).calls[..0] == [];
  }

  lemma PlaceOrgSettled(s: Service, st: Settings, note: string, user: Option<User>, org: Org, person: Option<Person>)
    ensures SettledOutcome(s, PlaceOrgRun(s, st, note, user, org, person))
  {
    var entry := AddToListRun(s, st.listId, org.id, OrgEntityType);
    assert Settled(s, entry) by { AddToListSettled(s, st.listId, org.id, OrgEntityType); }
    if entry.out.Success? {
      var rest := OrgFollowUps(s, st.listId, entry.out.value.id, org.id, user, note);
      assert FatalOk(s, rest) by {
        OrgFollowUpsOrdered(s, st.listId, entry.out.value.id, org.id, user, note);
        FollowUpsNotFatal(s, rest);
      }
      FatalOkConcat(s, entry.calls, rest);
    }
  }

  lemma PlacePersonSettled(s: Service, st: Settings, note: string, user: Option<User>, p: Person)
    ensures SettledOutcome(s, PlacePersonRun(s, st, note, user, p))
  {
    var entry := AddToListRun(s, st.peopleListId, p.id, PersonEntityType);
    assert Settled(s, entry) by { AddToListSettled(s, st.peopleListId, p.id, PersonEntityType); }
    if entry.out.Success? {
      var rest := PersonFollowUps(s, st.peopleListId, entry.out.value.id, p.id, user, note);
      assert FatalOk(s, rest) by {
        PersonFollowUpsOrdered(s, st.peopleListId, entry.out.value.id, p.id, user, note);
        FollowUpsNotFatal(s, rest);
      }
      FatalOkConcat(s, entry.calls, rest);
    }
  }

  lemma MasterDealSettled(s: Service, st: Settings, data: InputRecord, user: Option<User>)
    ensures SettledOutcome(s, MasterDealRun(s, st, data, user))
  {
    var records := DealRecordsRun(s, data.source);
    DealRecordsSettled(s, data.source);
    if records.out.Success? {
      var d := records.out.value;
      var rest := PlaceOrgRun(s, st, data.note, user, d.org, d.person);
      PlaceOrgSettled(s, st, data.note, user, d.org, d.person);
      if rest.out.Added? {
        FatalOkConcat(s, records.calls, rest.calls);
      } else {
        StopsAtAfter(s, records.calls, rest.calls, rest.out.failure);
      }
    }
  }

  lemma PeopleSettled(s: Service, st: Settings, data: InputRecord, user: Option<User>)
    ensures SettledOutcome(s, InterestingPeopleRun(s, st, data, user))
  {
    if st.peopleListId != "" {
      var who := PeopleFlowName(data.source);
      var person := CreatePersonRun(s, who.0.first, who.0.last, who.1);
      PersonSettled(s, who.0.first, who.0.last, who.1);
      if person.out.Success? {
        var rest := PlacePersonRun(s, st, data.note, user, person.out.value);
        PlacePersonSettled(s, st, data.note, user, person.out.value);
        if rest.out.Added? {
          FatalOkConcat(s, person.calls, rest.calls);
        } else {
          StopsAtAfter(s, person.calls, rest.calls, rest.out.failure);
        }
      }
    }
  }

  /**
   * How a run of `handleAddToAffinity` ends. It succeeds only when every
   * mandatory request it issued (organization, person, list entry) was
   * answered with a body. It fails for missing settings having written
   * nothing. Otherwise it fails at its last request, a mandatory one, whose
   * reply is the error reported, every earlier mandatory request having
   * succeeded.
   */
  lemma AddRunSettled(s: Service, st: Settings, data: InputRecord)
    ensures var r := AddRun(s, st, data);
      && (r.out.Added? ==> FatalOk(s, r.calls))
      && (r.out.Failed? && r.out.failure.MissingConfig? ==> forall c :: c in r.calls ==> !IsWrite(c))
      && (r.out.Failed? && !r.out.failure.MissingConfig? ==> StopsAt(s, r.calls, r.out.failure))
  {
    if st.apiKey != "" && st.listId != "" {
      var user := CurrentUserRun(s, st.userEmail);
      CurrentUserSpec(s, st.userEmail);
      assert FatalOk(s, user.calls) by {
        forall c | c in user.calls
          ensures FatalFailure(s, c).None?
        {
          assert !IsWrite(c);
        }
      }
      var flow := if data.target == InterestingPeople
        then InterestingPeopleRun(s, st, data, user.out)
        else MasterDealRun(s, st, data, user.out);
      if data.target == InterestingPeople {
        PeopleSettled(s, st, data, user.out);
        if st.peopleListId == "" {
          PeopleListRequired(s, st, data);
        }
      } else {
        MasterDealSettled(s, st, data, user.out);
        assert flow.out.Failed? ==> !flow.out.failure.MissingConfig?;
      }
      if flow.out.Added? {
        FatalOkConcat(s, user.calls, flow.calls);
      } else if !flow.out.failure.MissingConfig? {
        StopsAtAfter(s, user.calls, flow.calls, flow.out.failure);
      }
    }
  }

  /** A refused organization request ends the run with the service's message, or its status text. */
  lemma OrganizationRejected(s: Service, st: Settings, companyName: string, domain: string, note: string,
                             statusText: string, message: string)
    requires st.apiKey != "" && st.listId != ""
    requires s.createOrg(companyName, if domain != "" then Some(domain) else None) == Rejected(statusText, message)
    ensures var r := AddRun(s, st, InputRecord(Website(companyName, domain), note, MasterDeal));
      && r.out == Failed(RemoteError("Failed to create organization: " + (if message != "" then message else statusText)))
      && r.calls == CurrentUserRun(s, st.userEmail).calls + [OrgRequest(companyName, domain)]
  {
    assert "Failed to " + "create organization" + ": " == "Failed to create organization: ";
  }

  // --------------------------------------------------------- best effort

  /**
   * Two services that answer the identity, user and person lookups and the
   * three mandatory requests alike; they may differ on field lists, on the
   * person-field list and on whether any best-effort write is accepted.
   */
  ghost predicate SameDecisions(s: Service, t: Service)
  {
    && s.whoami == t.whoami
    && s.listUsers == t.listUsers
    && (forall term :: s.searchPersons(term) == t.searchPersons(term))
    && (forall id :: s.getUser(id) == t.getUser(id))
    && (forall name, domain :: s.createOrg(name, domain) == t.createOrg(name, domain))
    && (forall first, last :: s.createPerson(first, last) == t.createPerson(first, last))
    && (forall listId, entityId, entityType :: s.addListEntry(listId, entityId, entityType) == t.addListEntry(listId, entityId, entityType))
  }

  lemma SamePerson(s: Service, t: Service, first: string, last: string, url: Option<string>)
    requires SameDecisions(s, t)
    ensures CreatePersonRun(s, first, last, url).out == CreatePersonRun(t, first, last, url).out
  {
  }

  lemma SameRecords(s: Service, t: Service, src: Source)
    requires SameDecisions(s, t)
    ensures DealRecordsRun(s, src).out == DealRecordsRun(t, src).out
  {
    match src
    case LinkedInProfile(fullName, url) =>
      var name := SplitName(fullName);
      SamePerson(s, t, name.first, name.last, Some(url));
    case Website(_, _) =>
  }

  /**
   * The owner, status, LinkedIn-field, link and note requests never decide
   * the result: whatever the service answers to them, and whatever field
   * lists it returns, the run reports the same outcome.
   */
  lemma BestEffortNeverDecides(s: Service, t: Service, st: Settings, data: InputRecord)
    requires SameDecisions(s, t)
    ensures AddRun(s, st, data).out == AddRun(t, st, data).out
  {
    if st.apiKey != "" && st.listId != "" {
      var user := CurrentUserRun(s, st.userEmail).out;
      assert user == CurrentUserRun(t, st.userEmail).out;
      if data.target == InterestingPeople {
        var who := PeopleFlowName(data.source);
        SamePerson(s, t, who.0.first, who.0.last, who.1);
      } else {
        SameRecords(s, t, data.source);
      }
    }
  }
}

=== FILE: pipeline.dfy ===
/**
 * End-to-end guarantees of `handleAddToAffinity`: the order in which remote
 * state is changed, what a successful run has attached to which record, how
 * a failed mandatory request ends the run, and that the best-effort steps
 * never decide the result.
 */
module Pipeline {
  import opened Wrappers
  import opened Text
  import opened Records
  import opened Decisions
  import opened Oracle
  import opened Workflow
  import opened Properties
  import opened Sequences

  // ----------------------------------------------------------- ordering

  /**
   * The stage a write belongs to: the records themselves, their links and
   * profile fields (1), the list entry (2), fields of the list entry (3),
   * the note (4). Reads belong to no stage.
   */
  function Stage(c: Call): nat
  {
    match c
    case CreateOrg(_, _) => 1
    case CreatePerson(_, _) => 1
    case SetOrgPersons(_, _) => 1
    case SetPersonOrgs(_, _) => 1
    case CreateRelationship(_, _, _) => 1
    case PostFieldValue(_, _, entry, _) => if entry.None? then 1 else 3
    case AddListEntry(_, _, _) => 2
    case PostNote(_, _, _) => 4
    case _ => 0
  }

  /** Every write among `calls` belongs to a stage between `lo` and `hi`. */
  predicate WritesIn(calls: seq<Call>, lo: nat, hi: nat)
  {
    forall c :: c in calls && IsWrite(c) ==> lo <= Stage(c) <= hi
  }

  /** No write of a later stage comes before a write of an earlier one. */
  predicate WritesOrdered(calls: seq<Call>)
  {
    forall i, j :: 0 <= i < j < |calls| && IsWrite(calls[i]) && IsWrite(calls[j]) ==>
      Stage(calls[i]) <= Stage(calls[j])
  }

  lemma OneStage(calls: seq<Call>, stage: nat)
    requires WritesIn(calls, stage, stage)
    ensures WritesOrdered(calls)
  {
    forall i, j | 0 <= i < j < |calls| && IsWrite(calls[i]) && IsWrite(calls[j])
      ensures Stage(calls[i]) <= Stage(calls[j])
    {
      assert calls[i] in calls && calls[j] in calls;
    }
  }

  /** Running an ordered step after an ordered step of no earlier stage keeps the writes ordered. */
  lemma OrderedConcat(a: seq<Call>, b: seq<Call>, lo: nat, mid: nat, hi: nat)
    requires lo <= mid <= hi
    requires WritesOrdered(a) && WritesIn(a, lo, mid)
    requires WritesOrdered(b) && WritesIn(b, mid, hi)
    ensures WritesOrdered(a + b) && WritesIn(a + b, lo, hi)
  {
    var ab := a + b;
    forall i, j | 0 <= i < j < |ab| && IsWrite(ab[i]) && IsWrite(ab[j])
      ensures Stage(ab[i]) <= Stage(ab[j])
    {
      if j < |a| {
        assert ab[i] == a[i] && ab[j] == a[j];
      } else if i >= |a| {
        assert ab[i] == b[i - |a|] && ab[j] == b[j - |a|];
      } else {
        assert ab[i] == a[i] && a[i] in a;
        assert ab[j] == b[j - |a|] && b[j - |a|] in b;
      }
    }
    forall c | c in ab && IsWrite(c)
      ensures lo <= Stage(c) <= hi
    {
      if c !in a {
        assert c in b;
      }
    }
  }

  /** A stage range can always be widened. */
  lemma Widen(calls: seq<Call>, lo: nat, hi: nat, lo2: nat, hi2: nat)
    requires WritesIn(calls, lo, hi) && lo2 <= lo && hi <= hi2
    ensures WritesIn(calls, lo2, hi2)
  {
  }

  lemma ReadsOnly(calls: seq<Call>, lo: nat, hi: nat)
    requires forall c :: c in calls ==> !IsWrite(c)
    ensures WritesOrdered(calls) && WritesIn(calls, lo, hi)
  {
  }

  /** The person step creates records and profile fields only. */
  lemma PersonStage(s: Service, first: string, last: string, url: Option<string>)
    ensures WritesOrdered(CreatePersonRun(s, first, last, url).calls)
    ensures WritesIn(CreatePersonRun(s, first, last, url).calls, 1, 1)
  {
    PersonReuse(s, first, last, url);
    var calls := CreatePersonRun(s, first, last, url).calls;
    forall c | c in calls && IsWrite(c)
      ensures Stage(c) == 1
    {
      var k :| 0 <= k < |calls| && calls[k] == c;
      if k >= 2 {
        assert c == calls[2..][k - 2];
      }
    }
    OneStage(calls, 1);
  }

  /** Owner writes are writes to the list entry's fields. */
  lemma OwnerStage(s: Service, listId: string, entryId: Id, entityId: Id, user: Option<User>)
    ensures WritesOrdered(OwnerStep(s, listId, entryId, entityId, user))
    ensures WritesIn(OwnerStep(s, listId, entryId, entityId, user), 3, 3)
  {
    if user.Some? {
      var owner := OwnerRun(s, listId, entryId, entityId, user.value);
      forall c | c in owner && IsWrite(c)
        ensures Stage(c) == 3
      {
        OwnerRunSpec(s, listId, entryId, entityId, user.value);
      }
      OneStage(owner, 3);
    }
  }

  /** The status write is a write to the list entry's fields. */
  lemma StatusStage(s: Service, listId: string, entryId: Id, entityId: Id)
    ensures WritesOrdered(StatusRun(s, listId, entryId, entityId, StatusToSet))
    ensures WritesIn(StatusRun(s, listId, entryId, entityId, StatusToSet), 3, 3)
  {
    StatusRunSpec(s, listId, entryId, entityId, StatusToSet);
    OneStage(StatusRun(s, listId, entryId, entityId, StatusToSet), 3);
  }

  /** The note is the last stage. */
  lemma NoteStage(note: string, entityId: Id, scope: NoteScope)
    ensures WritesOrdered(NoteCalls(note, entityId, scope))
    ensures WritesIn(NoteCalls(note, entityId, scope), 3, 4)
  {
    var calls := NoteCalls(note, entityId, scope);
    assert calls == [] || calls == [PostNote(NoteText(note).value, scope, entityId)];
    NoteOnly(calls);
  }

  lemma NoteOnly(calls: seq<Call>)
    requires calls == [] || (|calls| == 1 && calls[0].PostNote?)
    ensures WritesOrdered(calls)
    ensures WritesIn(calls, 3, 4)
  {
  }

  /** After an organization's list entry: its owner, then the note. */
  lemma OrgFollowUpsOrdered(s: Service, listId: string, entryId: Id, orgId: Id, user: Option<User>, note: string)
    ensures WritesOrdered(OrgFollowUps(s, listId, entryId, orgId, user, note))
    ensures WritesIn(OrgFollowUps(s, listId, entryId, orgId, user, note), 3, 4)
  {
    OwnerStage(s, listId, entryId, orgId, user);
    NoteStage(note, orgId, OrgScope);
    OrderedConcat(OwnerStep(s, listId, entryId, orgId, user), NoteCalls(note, orgId, OrgScope), 3, 3, 4);
  }

  /** After a person's list entry: its owner, then its status, then the note. */
  lemma PersonFollowUpsOrdered(s: Service, listId: string, entryId: Id, personId: Id, user: Option<User>, note: string)
    ensures WritesOrdered(PersonFollowUps(s, listId, entryId, personId, user, note))
    ensures WritesIn(PersonFollowUps(s, listId, entryId, personId, user, note), 3, 4)
  {
    var owner := OwnerStep(s, listId, entryId, personId, user);
    var status := StatusRun(s, listId, entryId, personId, StatusToSet);
    var notes := NoteCalls(note, personId, PersonScope);
    OwnerStage(s, listId, entryId, personId, user);
    StatusStage(s, listId, entryId, personId);
    NoteStage(note, personId, PersonScope);
    OrderedConcat(owner, status, 3, 3, 3);
    OrderedConcat(owner + status, notes, 3, 3, 4);
  }

  /** `c` is an owner write: the operator's candidate id into the list's owner field. */
  predicate OwnerWriteOf(c: Call, fields: seq<Field>, user: Option<User>)
  {
    && user.Some?
    && OwnerField(fields).Some?
    && c.PostFieldValue?
    && c.fieldId == OwnerField(fields).value.id
    && c.value.IdValue?
    && c.value.id in OwnerCandidates(user.value)
  }

  /**
   * Owner and status writes share a stage, and within it the person's owner
   * writes come first: with a status field, the status write is preceded
   * only by owner writes and followed only by the note.
   */
  lemma StatusAfterOwner(s: Service, listId: string, entryId: Id, personId: Id, user: Option<User>, note: string)
    ensures var r := PersonFollowUps(s, listId, entryId, personId, user, note);
      var fields := ListFieldsRun(s, listId);
      StatusField(fields.out).Some? ==>
        exists k :: (
          && 0 <= k < |r|
          && r[k] == PostFieldValue(StatusField(fields.out).value.id, personId, Some(entryId),
                                    StatusValue(StatusField(fields.out).value, StatusToSet))
          && (forall j :: 0 <= j < k && IsWrite(r[j]) ==> OwnerWriteOf(r[j], fields.out, user))
          && (forall j :: k < j < |r| && IsWrite(r[j]) ==> r[j].PostNote?))
  {
    var fields := ListFieldsRun(s, listId);
    if StatusField(fields.out).Some? {
      var owner := OwnerStep(s, listId, entryId, personId, user);
      var status := StatusRun(s, listId, entryId, personId, StatusToSet);
      var notes := NoteCalls(note, personId, PersonScope);
      var w := PostFieldValue(StatusField(fields.out).value.id, personId, Some(entryId),
                              StatusValue(StatusField(fields.out).value, StatusToSet));
      StatusRunSpec(s, listId, entryId, personId, StatusToSet);
      ListFieldsOnlyRead(s, listId);
      OwnerStepWrites(s, listId, entryId, personId, user);
      NotesOnly(note, personId, PersonScope);
      assert PersonFollowUps(s, listId, entryId, personId, user, note) == owner + fields.calls + [w] + notes;
      WriteBetween(owner, fields.calls, w, notes, fields.out, user);
    }
  }

  lemma ListFieldsOnlyRead(s: Service, listId: string)
    ensures forall c :: c in ListFieldsRun(s, listId).calls ==> !IsWrite(c)
  {
    ListFieldsSpec(s, listId);
  }

  lemma OwnerStepWrites(s: Service, listId: string, entryId: Id, entityId: Id, user: Option<User>)
    ensures forall c :: c in OwnerStep(s, listId, entryId, entityId, user) && IsWrite(c) ==>
      OwnerWriteOf(c, ListFieldsRun(s, listId).out, user)
  {
    if user.Some? {
      OwnerRunSpec(s, listId, entryId, entityId, user.value);
    }
  }

  lemma NotesOnly(note: string, entityId: Id, scope: NoteScope)
    ensures forall c :: c in NoteCalls(note, entityId, scope) ==> c.PostNote?
  {
  }

  /** A write placed after owner writes and reads, and before notes. */
  lemma WriteBetween(owner: seq<Call>, before: seq<Call>, w: Call, notes: seq<Call>, fields: seq<Field>, user: Option<User>)
    requires forall c :: c in owner && IsWrite(c) ==> OwnerWriteOf(c, fields, user)
    requires forall c :: c in before ==> !IsWrite(c)
    requires forall c :: c in notes ==> c.PostNote?
    ensures var r := owner + before + [w] + notes;
      var k := |owner| + |before|;
      && 0 <= k < |r| && r[k] == w
      && (forall j :: 0 <= j < k && IsWrite(r[j]) ==> OwnerWriteOf(r[j], fields, user))
      && (forall j :: k < j < |r| && IsWrite(r[j]) ==> r[j].PostNote?)
  {
    var r := owner + before + [w] + notes;
    var k := |owner| + |before|;
    forall j | 0 <= j < k
      ensures r[j] in owner || r[j] in before
    {
      if j < |owner| {
        assert r[j] == owner[j];
      } else {
        assert r[j] == before[j - |owner|];
      }
    }
    forall j | k < j < |r|
      ensures r[j] in notes
    {
      assert r[j] == notes[j - k - 1];
    }
  }

  lemma PlaceOrgOrdered(s: Service, st: Settings, note: string, user: Option<User>, org: Org, person: Option<Person>)
    ensures WritesOrdered(PlaceOrgRun(s, st, note, user, org, person).calls)
    ensures WritesIn(PlaceOrgRun(s, st, note, user, org, person).calls, 2, 4)
  {
    var entry := AddToListRun(s, st.listId, org.id, OrgEntityType);
    OneStage(entry.calls, 2);
    if entry.out.Success? {
      var rest := OrgFollowUps(s, st.listId, entry.out.value.id, org.id, user, note);
      OrgFollowUpsOrdered(s, st.listId, entry.out.value.id, org.id, user, note);
      Widen(rest, 3, 4, 2, 4);
      OrderedConcat(entry.calls, rest, 2, 2, 4);
    }
  }

  lemma PlacePersonOrdered(s: Service, st: Settings, note: string, user: Option<User>, p: Person)
    ensures WritesOrdered(PlacePersonRun(s, st, note, user, p).calls)
    ensures WritesIn(PlacePersonRun(s, st, note, user, p).calls, 2, 4)
  {
    var entry := AddToListRun(s, st.peopleListId, p.id, PersonEntityType);
    OneStage(entry.calls, 2);
    if entry.out.Success? {
      var rest := PersonFollowUps(s, st.peopleListId, entry.out.value.id, p.id, user, note);
      PersonFollowUpsOrdered(s, st.peopleListId, entry.out.value.id, p.id, user, note);
      Widen(rest, 3, 4, 2, 4);
      OrderedConcat(entry.calls, rest, 2, 2, 4);
    }
  }

  /** The records of the deal-list flow are created and linked before anything else is written. */
  lemma DealRecordsStage(s: Service, src: Source)
    ensures WritesOrdered(DealRecordsRun(s, src).calls) && WritesIn(DealRecordsRun(s, src).calls, 1, 1)
  {
    match src
    case LinkedInProfile(fullName, url) =>
      var name := SplitName(fullName);
      var org := CreateOrgRun(s, OrgName(fullName), "");
      var person := CreatePersonRun(s, name.first, name.last, Some(url));
      OneStage(org.calls, 1);
      PersonStage(s, name.first, name.last, Some(url));
      OrderedConcat(org.calls, person.calls, 1, 1, 1);
      if org.out.Success? && person.out.Success? {
        var links := LinkCalls(person.out.value.id, org.out.value.id);
        OneStage(links, 1);
        OrderedConcat(org.calls + person.calls, links, 1, 1, 1);
      }
    case Website(companyName, domain) =>
      OneStage(CreateOrgRun(s, companyName, domain).calls, 1);
  }

  lemma MasterDealOrdered(s: Service, st: Settings, data: InputRecord, user: Option<User>)
    ensures WritesOrdered(MasterDealRun(s, st, data, user).calls)
    ensures WritesIn(MasterDealRun(s, st, data, user).calls, 1, 4)
  {
    var records := DealRecordsRun(s, data.source);
    DealRecordsStage(s, data.source);
    if records.out.Success? {
      var r := records.out.value;
      PlaceOrgOrdered(s, st, data.note, user, r.org, r.person);
      OrderedConcat(records.calls, PlaceOrgRun(s, st, data.note, user, r.org, r.person).calls, 1, 2, 4);
    }
  }

  lemma PeopleOrdered(s: Service, st: Settings, data: InputRecord, user: Option<User>)
    ensures WritesOrdered(InterestingPeopleRun(s, st, data, user).calls)
    ensures WritesIn(InterestingPeopleRun(s, st, data, user).calls, 1, 4)
  {
    if st.peopleListId != "" {
      var who := PeopleFlowName(data.source);
      var person := CreatePersonRun(s, who.0.first, who.0.last, who.1);
      PersonStage(s, who.0.first, who.0.last, who.1);
      if person.out.Success? {
        PlacePersonOrdered(s, st, data.note, user, person.out.value);
        OrderedConcat(person.calls, PlacePersonRun(s, st, data.note, user, person.out.value).calls, 1, 1, 4);
      }
    }
  }

  /**
   * A run changes remote state in stage order: the records (and their links
   * and profile fields) first, then the list entry, then the entry's owner and
   * status, then the note; nothing is ever written to an earlier stage after
   * a later one.
   */
  lemma AddRunOrdered(s: Service, st: Settings, data: InputRecord)
    ensures WritesOrdered(AddRun(s, st, data).calls)
  {
    if st.apiKey != "" && st.listId != "" {
      var user := CurrentUserRun(s, st.userEmail);
      CurrentUserSpec(s, st.userEmail);
      ReadsOnly(user.calls, 1, 1);
      if data.target == InterestingPeople {
        PeopleOrdered(s, st, data, user.out);
        OrderedConcat(user.calls, InterestingPeopleRun(s, st, data, user.out).calls, 1, 1, 4);
      } else {
        MasterDealOrdered(s, st, data, user.out);
        OrderedConcat(user.calls, MasterDealRun(s, st, data, user.out).calls, 1, 1, 4);
      }
    }
  }
}

=== FILE: properties.dfy ===
/**
 * What the reconciliation pipeline guarantees, stated about the `Workflow`
 * functions (and so, through the `Engine.Client` postconditions, about the
 * requests the engine actually issues).
 */
module Properties {
  import opened Wrappers
  import opened Text
  import opened Records
  import opened Decisions
  import opened Oracle
  import opened Workflow

  // ------------------------------------------------------------- owner

  /**
   * `w` is what the owner loop writes for the candidates `cs`: the candidates
   * in order, never more of them than there are, stopping right after the
   * first accepted write and going through all of them when none is
   * accepted; so every write but the last was refused.
   */
  predicate OwnerLoop(s: Service, f: Id, entityId: Id, entryId: Id, cs: seq<Id>, w: seq<Call>)
  {
    && |w| <= |cs|
    && (w == [] <==> cs == [])
    && (forall k :: 0 <= k < |w| ==> w[k] == OwnerWrite(f, entityId, entryId, cs[k]))
    && (forall k :: 0 <= k < |w| - 1 ==> !s.accepts(w[k]))
    && (|w| < |cs| ==> w != [] && s.accepts(w[|w| - 1]))
    && ((forall k :: 0 <= k < |cs| ==> !s.accepts(OwnerWrite(f, entityId, entryId, cs[k]))) ==> |w| == |cs|)
  }

  /** The owner loop writes the candidates as `OwnerLoop` describes: at most one write succeeds, the last one. */
  lemma {:induction false} OwnerAttemptsSpec(s: Service, f: Id, entityId: Id, entryId: Id, cs: seq<Id>)
    ensures OwnerLoop(s, f, entityId, entryId, cs, OwnerAttempts(s, f, entityId, entryId, cs))
  {
    if cs != [] {
      var c := OwnerWrite(f, entityId, entryId, cs[0]);
      if !s.accepts(c) {
        OwnerAttemptsSpec(s, f, entityId, entryId, cs[1..]);
        var rest := OwnerAttempts(s, f, entityId, entryId, cs[1..]);
        var calls := OwnerAttempts(s, f, entityId, entryId, cs);
        assert calls == [c] + rest;
        forall k | 0 <= k < |calls|
          ensures calls[k] == OwnerWrite(f, entityId, entryId, cs[k])
        {
          if k > 0 {
            assert calls[k] == rest[k - 1];
          }
        }
        if forall k :: 0 <= k < |cs| ==> !s.accepts(OwnerWrite(f, entityId, entryId, cs[k])) {
          assert forall k :: 0 <= k < |cs[1..]| ==> !s.accepts(OwnerWrite(f, entityId, entryId, cs[1..][k])) by {
            forall k | 0 <= k < |cs[1..]|
              ensures !s.accepts(OwnerWrite(f, entityId, entryId, cs[1..][k]))
            {
              assert cs[1..][k] == cs[k + 1];
            }
          }
        }
      }
    }
  }

  /**
   * Setting the owner reads the list's fields and writes only to the owner
   * field of the list entry, with one of the operator's candidate ids; with no
   * owner field among the list's fields it writes nothing, and every write
   * but the last issued was refused.
   */
  lemma OwnerRunSpec(s: Service, listId: string, entryId: Id, entityId: Id, user: User)
    ensures var r := OwnerRun(s, listId, entryId, entityId, user);
      var fields := ListFieldsRun(s, listId);
      && fields.calls <= r
      && (OwnerField(fields.out).None? ==> r == fields.calls && forall c :: c in r ==> !IsWrite(c))
      && (forall c :: c in r && IsWrite(c) ==>
            && OwnerField(fields.out).Some?
            && c.PostFieldValue?
            && c.fieldId == OwnerField(fields.out).value.id
            && c.entityId == entityId
            && c.listEntryId == Some(entryId)
            && c.value.IdValue?
            && c.value.id in OwnerCandidates(user))
      && (forall i :: 0 <= i < |r| - 1 && IsWrite(r[i]) ==> !s.accepts(r[i]))
  {
    var r := OwnerRun(s, listId, entryId, entityId, user);
    var fields := ListFieldsRun(s, listId);
    assert forall c :: c in fields.calls ==> !IsWrite(c);
    if |fields.out| > 0 && OwnerField(fields.out).Some? {
      var f := OwnerField(fields.out).value;
      var cands := OwnerCandidates(user);
      var writes := OwnerAttempts(s, f.id, entityId, entryId, cands);
      assert r == fields.calls + writes;
      OwnerAttemptsSpec(s, f.id, entityId, entryId, cands);
      LoopAfterReads(s, f.id, entityId, entryId, cands, fields.calls, writes);
    }
  }

  /**
   * With an owner field among the list's fields, what follows the field
   * requests is the owner loop over the operator's candidates: each candidate
   * in turn, until one is accepted.
   */
  lemma OwnerRunLoop(s: Service, listId: string, entryId: Id, entityId: Id, user: User)
    ensures var r := OwnerRun(s, listId, entryId, entityId, user);
      var fields := ListFieldsRun(s, listId);
      && fields.calls <= r
      && (OwnerField(fields.out).Some? ==>
            OwnerLoop(s, OwnerField(fields.out).value.id, entityId, entryId, OwnerCandidates(user), r[|fields.calls|..]))
  {
    var fields := ListFieldsRun(s, listId);
    if |fields.out| > 0 && OwnerField(fields.out).Some? {
      var f := OwnerField(fields.out).value;
      var writes := OwnerAttempts(s, f.id, entityId, entryId, OwnerCandidates(user));
      assert OwnerRun(s, listId, entryId, entityId, user)[|fields.calls|..] == writes;
      OwnerAttemptsSpec(s, f.id, entityId, entryId, OwnerCandidates(user));
    }
  }

  /** The owner loop's writes, after requests that only read. */
  lemma LoopAfterReads(s: Service, f: Id, entityId: Id, entryId: Id, cs: seq<Id>, before: seq<Call>, w: seq<Call>)
    requires forall c :: c in before ==> !IsWrite(c)
    requires OwnerLoop(s, f, entityId, entryId, cs, w)
    ensures forall c :: c in before + w && IsWrite(c) ==>
      && c.PostFieldValue? && c.fieldId == f && c.entityId == entityId && c.listEntryId == Some(entryId)
      && c.value.IdValue? && c.value.id in cs
    ensures forall i :: 0 <= i < |before + w| - 1 && IsWrite((before + w)[i]) ==> !s.accepts((before + w)[i])
  {
    var r := before + w;
    forall c | c in r && IsWrite(c)
      ensures c.PostFieldValue? && c.fieldId == f && c.entityId == entityId && c.listEntryId == Some(entryId)
      ensures c.value.IdValue? && c.value.id in cs
    {
      var k :| 0 <= k < |w| && w[k] == c;
    }
    forall i | 0 <= i < |r| - 1 && IsWrite(r[i])
      ensures !s.accepts(r[i])
    {
      assert r[i] == w[i - |before|];
    }
  }

  // ------------------------------------------------------------ status

  /**
   * Setting the status issues at most one write, and issues it exactly when
   * the list has a field named "status" (any case): to that field of the list
   * entry, carrying the matching option id or the text.
   */
  lemma StatusRunSpec(s: Service, listId: string, entryId: Id, entityId: Id, status: string)
    ensures var r := StatusRun(s, listId, entryId, entityId, status);
      var fields := ListFieldsRun(s, listId);
      && fields.calls <= r
      && |r| <= |fields.calls| + 1
      && (StatusField(fields.out).None? <==> r == fields.calls)
      && (forall c :: c in r && IsWrite(c) ==>
            && StatusField(fields.out).Some?
            && IsStatusField(StatusField(fields.out).value)
            && c == PostFieldValue(StatusField(fields.out).value.id, entityId, Some(entryId),
                                   StatusValue(StatusField(fields.out).value, status)))
      && (StatusField(fields.out).Some? ==>
            r == fields.calls + [PostFieldValue(StatusField(fields.out).value.id, entityId, Some(entryId),
                                                StatusValue(StatusField(fields.out).value, status))])
  {
    var fields := ListFieldsRun(s, listId);
    assert forall c :: c in fields.calls ==> !IsWrite(c);
    match StatusField(fields.out)
    case None =>
    case Some(f) =>
      assert exists i :: 0 <= i < |fields.out| && fields.out[i] == f && IsStatusField(fields.out[i]);
  }

  // ------------------------------------------------------------ fields

  /**
   * The list's own fields when the list-scoped request succeeds; otherwise
   * the global fields that belong to the list, or none when both fail. In
   * the fallback the owner and status fields are the first global fields of
   * the list with those names. Only reads are issued.
   */
  lemma ListFieldsSpec(s: Service, listId: string)
    ensures var r := ListFieldsRun(s, listId);
      && (forall c :: c in r.calls ==> !IsWrite(c))
      && r.calls[0] == GetListFields(listId)
      && (s.listFields(listId).Ok? && s.listFields(listId).payload.Some? ==>
            r.out == s.listFields(listId).payload.value && r.calls == [GetListFields(listId)])
      && (!(s.listFields(listId).Ok? && s.listFields(listId).payload.Some?) ==>
            && r.calls == [GetListFields(listId), GetAllFields]
            && (forall f :: f in r.out <==>
                  s.allFields.Ok? && s.allFields.payload.Some? && f in s.allFields.payload.value
                  && BelongsTo(f.listId, listId))
            && (s.allFields.Ok? && s.allFields.payload.Some? ==>
                  && OwnerField(r.out) == FirstField(s.allFields.payload.value, OnList(listId, IsOwnerField))
                  && StatusField(r.out) == FirstField(s.allFields.payload.value, OnList(listId, IsStatusField))))
  {
    if !(s.listFields(listId).Ok? && s.listFields(listId).payload.Some?) && s.allFields.Ok? && s.allFields.payload.Some? {
      FirstFieldOfList(s.allFields.payload.value, listId, IsOwnerField);
      FirstFieldOfList(s.allFields.payload.value, listId, IsStatusField);
    }
  }

  // ------------------------------------------------------- current user

  /**
   * Resolving the operator only reads, starts with the identity request, and
   * fails soft to "no user" exactly when that request fails.
   */
  lemma CurrentUserSpec(s: Service, userEmail: string)
    ensures var r := CurrentUserRun(s, userEmail);
      && (forall c :: c in r.calls ==> !IsWrite(c))
      && |r.calls| >= 1 && r.calls[0] == Whoami
      && (r.out.None? <==> !(s.whoami.Ok? && s.whoami.payload.Some?))
      && (r.out.None? ==> r.calls == [Whoami])
  {
    if s.whoami.Ok? && s.whoami.payload.Some? {
      CurrentUserLookups(s, userEmail);
    }
  }

  /**
   * After a successful identity request the operator is the identity record
   * with at most its person id replaced, and only by a truthy one: the id the
   * email search found, else the identity's own, else the team member's.
   */
  lemma CurrentUserResult(s: Service, userEmail: string)
    requires s.whoami.Ok? && s.whoami.payload.Some?
    ensures var w := s.whoami.payload.value;
      var r := CurrentUserRun(s, userEmail);
      && r.out.Some?
      && r.out.value == w.(personId := r.out.value.personId)
      && (r.out.value.personId != w.personId ==> Truthy(r.out.value.personId))
      && var email := EmailToSearch(userEmail, w);
         var page := s.searchPersons(email);
         var found := if email != "" && page.Ok? && page.payload.Some?
           then InternalPersonId(page.payload.value.persons, email) else None;
         var one := s.getUser(w.userId);
         var member := if one.Ok? && one.payload.Some? then one.payload
           else if s.listUsers.Ok? && s.listUsers.payload.Some? then TeamMember(s.listUsers.payload.value, w.userId)
           else None;
         r.out.value.personId ==
           if Truthy(found) then found
           else if Truthy(w.personId) then w.personId
           else if member.Some? && Truthy(member.value.personId) then member.value.personId
           else w.personId
  {
  }

  /**
   * The lookups behind a successful identity request: the email search uses
   * the configured address, else the identity's own, and is skipped when both
   * are empty; the team-member fallback runs exactly when the email search
   * left the person id falsy, and lists all users only when the single-user
   * request failed.
   */
  lemma CurrentUserLookups(s: Service, userEmail: string)
    requires s.whoami.Ok? && s.whoami.payload.Some?
    ensures
      var w := s.whoami.payload.value;
      var r := CurrentUserRun(s, userEmail);
      var email := EmailToSearch(userEmail, w);
      && (forall c :: c in r.calls ==> c == Whoami || c == SearchPersons(email) || c == GetUser(w.userId) || c == ListUsers)
      && (SearchPersons(email) in r.calls <==> email != "")
      && (GetUser(w.userId) in r.calls <==> !Truthy(EmailLookupRun(s, userEmail, w).out.personId))
      && (ListUsers in r.calls <==>
            GetUser(w.userId) in r.calls && !(s.getUser(w.userId).Ok? && s.getUser(w.userId).payload.Some?))
  {
    var w := s.whoami.payload.value;
    var byEmail := EmailLookupRun(s, userEmail, w);
    assert forall c :: c in byEmail.calls ==> c == SearchPersons(EmailToSearch(userEmail, w));
    if !Truthy(byEmail.out.personId) {
      assert byEmail.out.userId == w.userId;
    }
  }

  // --------------------------------------------------------- duplicates

  /**
   * Without an API key nothing is asked and no duplicate is reported;
   * otherwise one organization search by the input's term is issued, and a
   * duplicate is reported exactly when some returned organization matches,
   * namely the first such one, with its link.
   */
  lemma DuplicateSpec(s: Service, st: Settings, src: Source)
    ensures var r := DuplicateRun(s, st, src);
      && (st.apiKey == "" ==> r == Run(NoDuplicate, []))
      && (st.apiKey != "" ==> r.calls == [SearchOrgs(SearchTerm(src))])
      && (r.out.Duplicate? <==>
            && st.apiKey != ""
            && s.searchOrgs(SearchTerm(src)).Ok? && s.searchOrgs(SearchTerm(src)).payload.Some?
            && exists i :: 0 <= i < |s.searchOrgs(SearchTerm(src)).payload.value|
                 && MatchesExisting(src, SearchTerm(src), s.searchOrgs(SearchTerm(src)).payload.value[i]))
      && (r.out.Duplicate? ==>
            && r.out.organization in s.searchOrgs(SearchTerm(src)).payload.value
            && MatchesExisting(src, SearchTerm(src), r.out.organization)
            && r.out.url == EntityUrl(st.subdomain, "companies", r.out.organization.id)
            && exists i :: 0 <= i < |s.searchOrgs(SearchTerm(src)).payload.value|
                 && r.out.organization == s.searchOrgs(SearchTerm(src)).payload.value[i]
                 && MatchesExisting(src, SearchTerm(src), s.searchOrgs(SearchTerm(src)).payload.value[i])
                 && forall j :: 0 <= j < i ==>
                      !MatchesExisting(src, SearchTerm(src), s.searchOrgs(SearchTerm(src)).payload.value[j]))
  {
  }

  // ------------------------------------------------------------ persons

  /**
   * A person found by the LinkedIn search in a `{persons: [...]}` body is
   * reused as is, with no write; otherwise the person is created and, on
   * success, the only other write is the LinkedIn value on that new person.
   */
  lemma PersonReuse(s: Service, first: string, last: string, url: Option<string>)
    ensures var r := CreatePersonRun(s, first, last, url);
      var reply := s.searchPersons(LinkedInTerm(url));
      && |r.calls| >= 1 && r.calls[0] == SearchPersons(LinkedInTerm(url))
      && (reply.Ok? && reply.payload.Some? && reply.payload.value.wrapped && |reply.payload.value.persons| > 0 ==>
            r == Run(Success(reply.payload.value.persons[0]), [SearchPersons(LinkedInTerm(url))]))
      && (!(reply.Ok? && reply.payload.Some? && reply.payload.value.wrapped && |reply.payload.value.persons| > 0) ==>
            && |r.calls| >= 2 && r.calls[1] == CreatePerson(first, last)
            && (r.out.Success? <==> s.createPerson(first, last).Ok? && s.createPerson(first, last).payload.Some?)
            && (r.out.Success? ==> r.out.value == s.createPerson(first, last).payload.value)
            && (forall c :: c in r.calls[2..] && IsWrite(c) ==>
                  && r.out.Success?
                  && c.PostFieldValue? && c.entityId == r.out.value.id && c.listEntryId.None?
                  && c.value == (if url.Some? then TextValue(url.value) else NoValue)))
  {
    var r := CreatePersonRun(s, first, last, url);
    if ExistingPerson(s.searchPersons(LinkedInTerm(url))).None? && r.out.Success? {
      assert r.calls[2..] == LinkedInFieldCalls(s, r.out.value.id, url);
    }
  }

  /** `fs[i]` is the field `fields.find` picks as the LinkedIn field: the first one that qualifies. */
  predicate FirstLinkedIn(fs: seq<Field>, i: int)
  {
    && 0 <= i < |fs|
    && IsLinkedInField(fs[i])
    && forall j :: 0 <= j < i ==> !IsLinkedInField(fs[j])
  }

  /**
   * A newly created person gets its LinkedIn URL: the person fields are read,
   * and the URL is written exactly when some person field is a LinkedIn
   * field, into the first one, on the new person and outside any list.
   */
  lemma PersonLinkedIn(s: Service, first: string, last: string, url: Option<string>)
    ensures var r := CreatePersonRun(s, first, last, url);
      ExistingPerson(s.searchPersons(LinkedInTerm(url))).None? && r.out.Success? ==>
        && 3 <= |r.calls| <= 4
        && r.calls[2] == GetPersonFields
        && (|r.calls| == 4 <==>
              && s.personFields.Ok? && s.personFields.payload.Some?
              && exists k :: 0 <= k < |s.personFields.payload.value| && IsLinkedInField(s.personFields.payload.value[k]))
        && (|r.calls| == 4 ==>
              && s.personFields.Ok? && s.personFields.payload.Some?
              && exists i :: (
                   && FirstLinkedIn(s.personFields.payload.value, i)
                   && r.calls[3] == PostFieldValue(s.personFields.payload.value[i].id, r.out.value.id, None,
                                                   if url.Some? then TextValue(url.value) else NoValue)))
  {
    var r := CreatePersonRun(s, first, last, url);
    if ExistingPerson(s.searchPersons(LinkedInTerm(url))).None? && r.out.Success? {
      assert r.calls[2..] == LinkedInFieldCalls(s, r.out.value.id, url);
      if s.personFields.Ok? && s.personFields.payload.Some? {
        var fs := s.personFields.payload.value;
        match LinkedInField(fs)
        case None =>
        case Some(f) =>
          var i :| 0 <= i < |fs| && fs[i] == f && IsLinkedInField(fs[i]) && forall j :: 0 <= j < i ==> !IsLinkedInField(fs[j]);
          assert FirstLinkedIn(fs, i);
      }
    }
  }

  // ------------------------------------------------------ configuration

  /** Without an API key or a deal-list id nothing is requested and the configuration message is returned. */
  lemma ConfigRequired(s: Service, st: Settings, data: InputRecord)
    requires st.apiKey == "" || st.listId == ""
    ensures AddRun(s, st, data).out == Failed(MissingConfig(ConfigMessage))
    ensures AddRun(s, st, data).calls == []
  {
  }

  /**
   * Sending to the people list without its id fails with its own message
   * after resolving the operator, having changed nothing remotely.
   */
  lemma PeopleListRequired(s: Service, st: Settings, data: InputRecord)
    requires st.apiKey != "" && st.listId != "" && st.peopleListId == ""
    requires data.target == InterestingPeople
    ensures AddRun(s, st, data).out == Failed(MissingConfig(PeopleListMessage))
    ensures AddRun(s, st, data).calls == CurrentUserRun(s, st.userEmail).calls
    ensures forall c :: c in AddRun(s, st, data).calls ==> !IsWrite(c)
  {
    CurrentUserSpec(s, st.userEmail);
    assert AddRun(s, st, data).calls == CurrentUserRun(s, st.userEmail).calls + [];
  }

  // -------------------------------------------------------------- notes

  /**
   * A note made only of white space is not posted; any other note is posted
   * once, trimmed, on the given entity.
   */
  lemma NoteSpec(note: string, entityId: Id, scope: NoteScope)
    ensures (NoteCalls(note, entityId, scope) == []) <==> (forall i :: 0 <= i < |note| ==> IsSpace(note[i]))
    ensures NoteCalls(note, entityId, scope) != [] ==>
      && NoteCalls(note, entityId, scope) == [PostNote(Trim(note), scope, entityId)]
      && Trim(note) != "" && !IsSpace(Trim(note)[0]) && !IsSpace(Trim(note)[|Trim(note)| - 1])
  {
  }
}

=== FILE: records.dfy ===
/**
 * The values the reconciliation engine reads and produces: the record scraped
 * from a page, the extension's settings, and the remote entities as the engine
 * reads them out of response bodies.
 *
 * JavaScript's "missing" is written out: a string setting or field that is
 * absent or empty is "" (both are falsy), and an id that may be absent is an
 * `Option<Id>` (an id is truthy when present and non-zero).
 */
module Records {
  import opened Wrappers

  /** Remote identifiers are opaque numbers assigned by the service. */
  type Id = int

  /** `Boolean(x)` for an id that may be absent. */
  predicate Truthy(x: Option<Id>)
  {
    x.Some? && x.value != 0
  }

  /** Which list the caller asked for: `'interesting_people'`, or anything else (the deal list). */
  datatype TargetList = MasterDeal | InterestingPeople

  /** The page the record was scraped from (`type === 'linkedin_profile'`, or a website). */
  datatype Source =
    | LinkedInProfile(fullName: string, linkedinUrl: string)
    | Website(companyName: string, domain: string)

  /** The caller's request: the scraped page, the free-text note and the target list. */
  datatype InputRecord = InputRecord(source: Source, note: string, target: TargetList)

  /** The stored settings; "" stands for a setting that was never saved. */
  datatype Settings = Settings(
    apiKey: string,
    listId: string,
    peopleListId: string,
    subdomain: string,
    userEmail: string)

  /** An organization as returned by the service; `domain` is "" when it has none. */
  datatype Org = Org(id: Id, name: string, domain: string)

  /** A person as returned by the service; `emails` is empty when the record has none. */
  datatype Person = Person(id: Id, emails: seq<string>)

  /**
   * The operator as the identity endpoint describes them, with the four
   * identifiers the owner assignment may try.
   */
  datatype User = User(
    email: string,
    userId: Option<Id>,
    id: Option<Id>,
    grantId: Option<Id>,
    personId: Option<Id>)

  datatype DropdownOption = DropdownOption(id: Id, text: string)

  /** A field's `list_id` as the JSON carries it: absent, a number, or a string. */
  datatype ListRef = NoList | NumericList(number: int) | TextList(text: string)

  /** A list or person field; `dropdownOptions` is None when the field has no option set. */
  datatype Field = Field(
    id: Id,
    name: string,
    valueType: string,
    listId: ListRef,
    dropdownOptions: Option<seq<DropdownOption>>)

  datatype ListEntry = ListEntry(id: Id, entityId: Id)

  /** What a field-value write carries: an id, a text, or nothing (`value: undefined` is dropped by JSON). */
  datatype FieldValue = IdValue(id: Id) | TextValue(text: string) | NoValue

  /** A note is attached through `person_ids` or through `organization_ids`. */
  datatype NoteScope = PersonScope | OrgScope
}

=== FILE: sequences.dfy ===
/** Regrouping the requests of consecutive steps of a run. */
module Sequences {

  lemma Assoc3<T>(a: seq<T>, b: seq<T>, c: seq<T>)
    ensures a + b + c == a + (b + c)
  {
  }

  lemma Assoc4<T>(a: seq<T>, b: seq<T>, c: seq<T>, d: seq<T>)
    ensures a + b + c + d == a + (b + c + d)
  {
  }

  lemma Assoc5<T>(a: seq<T>, b: seq<T>, c: seq<T>, d: seq<T>, e: seq<T>)
    ensures a + b + c + d + e == a + (b + c + d + e)
  {
  }
}

=== FILE: text.dfy ===
/**
 * The string built-ins the engine leans on, written out: `split(' ')` and
 * `join(' ')`, `trim()`, `toLowerCase()`, `includes`, `parseInt` and the
 * decimal rendering of an id inside a URL.
 */
module Text {
  import opened Wrappers

  /** ECMAScript WhiteSpace and LineTerminator code points: what `trim()` strips. */
  predicate IsSpace(c: char)
  {
    var n := c as int;
    (9 <= n <= 13) || n == 0x20 || n == 0xA0 || n == 0x1680 || (0x2000 <= n <= 0x200A)
    || n == 0x2028 || n == 0x2029 || n == 0x202F || n == 0x205F || n == 0x3000 || n == 0xFEFF
  }

  /** `s[i..j]` is a stretch of `s` with nothing but white space before and after it. */
  predicate OnlySpaceOutside(s: string, i: int, j: int)
  {
    && 0 <= i <= j <= |s|
    && (forall k :: 0 <= k < i ==> IsSpace(s[k]))
    && (forall k :: j <= k < |s| ==> IsSpace(s[k]))
  }

  /** `r` is the stretch of `s` that starts at `i`, with nothing but white space around it. */
  predicate StretchAt(s: string, r: string, i: int)
  {
    OnlySpaceOutside(s, i, i + |r|) && r == s[i..i + |r|]
  }

  /** `s` with its leading white space removed. */
  function TrimStart(s: string): (r: string)
    ensures |r| <= |s| && r == s[|s| - |r|..]
    ensures r == [] || !IsSpace(r[0])
    ensures forall i :: 0 <= i < |s| - |r| ==> IsSpace(s[i])
  {
    if |s| > 0 && IsSpace(s[0]) then TrimStart(s[1..]) else s
  }

  /** `s` with its trailing white space removed. */
  function TrimEnd(s: string): (r: string)
    ensures |r| <= |s| && r == s[..|r|]
    ensures r == [] || !IsSpace(r[|r| - 1])
    ensures forall i :: |r| <= i < |s| ==> IsSpace(s[i])
  {
    if |s| > 0 && IsSpace(s[|s| - 1]) then TrimEnd(s[..|s| - 1]) else s
  }

  /** `String.prototype.trim`: `s` without its leading and trailing white space. */
  function Trim(s: string): (r: string)
    ensures |r| <= |s|
    ensures r == [] <==> forall i :: 0 <= i < |s| ==> IsSpace(s[i])
    ensures r != [] ==> !IsSpace(r[0]) && !IsSpace(r[|r| - 1])
  {
    TrimBothEnds(s);
    TrimEnd(TrimStart(s))
  }

  lemma TrimBothEnds(s: string)
    ensures |TrimEnd(TrimStart(s))| <= |s|
    ensures TrimEnd(TrimStart(s)) == [] <==> forall i :: 0 <= i < |s| ==> IsSpace(s[i])
    ensures TrimEnd(TrimStart(s)) != [] ==>
      !IsSpace(TrimEnd(TrimStart(s))[0]) && !IsSpace(TrimEnd(TrimStart(s))[|TrimEnd(TrimStart(s))| - 1])
  {
    var t := TrimStart(s);
    var r := TrimEnd(t);
    if r == [] {
      assert t == [];
    } else {
      assert r[0] == t[0];
    }
  }

  /** What `trim()` keeps is the stretch of `s` between its leading and its trailing white space. */
  lemma {:induction false} TrimStretch(s: string)
    ensures StretchAt(s, Trim(s), |s| - |TrimStart(s)|)
  {
    TrailingSpace(s, TrimStart(s), TrimEnd(TrimStart(s)), |s| - |TrimStart(s)|);
  }

  lemma TrailingSpace(s: string, t: string, r: string, i: int)
    requires 0 <= i <= |s| && t == s[i..]
    requires |r| <= |t| && r == t[..|r|]
    requires forall k :: 0 <= k < i ==> IsSpace(s[k])
    requires forall k :: |r| <= k < |t| ==> IsSpace(t[k])
    ensures StretchAt(s, r, i)
  {
    forall k | i + |r| <= k < |s|
      ensures IsSpace(s[k])
    {
      assert s[k] == t[k - i];
    }
  }

  function ToLowerChar(c: char): char
  {
    if 'A' <= c <= 'Z' then (c as int + 32) as char else c
  }

  /** `toLowerCase`, folding the ASCII letters. */
  function ToLower(s: string): (r: string)
    ensures |r| == |s|
    ensures forall i :: 0 <= i < |s| ==> r[i] == ToLowerChar(s[i])
  {
    if s == [] then [] else [ToLowerChar(s[0])] + ToLower(s[1..])
  }

  /** Case-insensitive equality as the source writes it: `a.toLowerCase() === b.toLowerCase()`. */
  predicate EqualsIgnoreCase(a: string, b: string)
  {
    ToLower(a) == ToLower(b)
  }

  /** `s.includes(sub)`: `sub` occurs somewhere in `s`. */
  predicate Contains(s: string, sub: string)
  {
    exists k :: 0 <= k <= |s| - |sub| && OccursAt(s, sub, k)
  }

  predicate OccursAt(s: string, sub: string, k: int)
  {
    0 <= k <= |s| - |sub| && s[k..k + |sub|] == sub
  }

  /** `s.split(sep)`: the maximal runs between separators, empty runs included. */
  function Split(s: string, sep: char): (parts: seq<string>)
    ensures |parts| >= 1
    ensures forall k :: 0 <= k < |parts| ==> sep !in parts[k]
    decreases |s|
  {
    if s == [] then [""]
    else
      var rest := Split(s[1..], sep);
      if s[0] == sep then [""] + rest
      else [[s[0]] + rest[0]] + rest[1..]
  }

  /** `parts.join(sep)`. */
  function Join(parts: seq<string>, sep: char): string
  {
    if |parts| == 0 then ""
    else if |parts| == 1 then parts[0]
    else parts[0] + [sep] + Join(parts[1..], sep)
  }

  /** Splitting and re-joining with the same separator gives back the original text. */
  lemma {:induction false} JoinSplit(s: string, sep: char)
    ensures Join(Split(s, sep), sep) == s
    decreases |s|
  {
    if s != [] {
      var rest := Split(s[1..], sep);
      JoinSplit(s[1..], sep);
      if s[0] == sep {
        assert Split(s, sep) == [""] + rest;
        assert ([""] + rest)[1..] == rest;
      } else {
        var parts := Split(s, sep);
        assert parts == [[s[0]] + rest[0]] + rest[1..];
        if |rest| == 1 {
          assert parts == [[s[0]] + rest[0]];
        } else {
          assert parts[1..] == rest[1..];
          assert Join(rest, sep) == rest[0] + [sep] + Join(rest[1..], sep);
        }
      }
    }
  }

  predicate IsDigit(c: char)
  {
    '0' <= c <= '9'
  }

  /** The longest prefix of `s` made of decimal digits. */
  function LeadingDigits(s: string): (d: string)
    ensures |d| <= |s| && d == s[..|d|]
    ensures forall i :: 0 <= i < |d| ==> IsDigit(d[i])
    ensures |d| < |s| ==> !IsDigit(s[|d|])
  {
    if s != [] && IsDigit(s[0]) then [s[0]] + LeadingDigits(s[1..]) else []
  }

  /** The number a run of decimal digits denotes. */
  function DigitsValue(d: string): nat
    requires forall i :: 0 <= i < |d| ==> IsDigit(d[i])
  {
    if d == [] then 0
    else
      var last := d[|d| - 1];
      assert IsDigit(last);
      DigitsValue(d[..|d| - 1]) * 10 + (last as int - '0' as int)
  }

  /** `parseInt(s)` in base ten: leading white space, an optional sign, then digits; NaN is None. */
  function ParseInt(s: string): Option<int>
  {
    ParseSigned(TrimStart(s))
  }

  /** An optional sign, then the number the leading digits denote. */
  function ParseSigned(t: string): Option<int>
  {
    if |t| > 0 && t[0] == '-' then
      match ParseUnsigned(t[1..])
      case None => None
      case Some(v) => Some(-v)
    else if |t| > 0 && t[0] == '+' then ParseUnsigned(t[1..])
    else ParseUnsigned(t)
  }

  /** The number the leading digits denote; None when there are none. */
  function ParseUnsigned(b: string): Option<int>
  {
    var d := LeadingDigits(b);
    if d == [] then None else Some(DigitsValue(d))
  }

  /** The decimal digits of `n`, as a number is rendered inside a template string. */
  function DecimalText(n: nat): (d: string)
    ensures |d| >= 1
    ensures forall i :: 0 <= i < |d| ==> IsDigit(d[i])
  {
    if n < 10 then [('0' as int + n) as char]
    else DecimalText(n / 10) + [('0' as int + n % 10) as char]
  }

  /** `${n}` for an integer id. */
  function IntText(n: int): string
  {
    if n < 0 then "-" + DecimalText(-n) else DecimalText(n)
  }

  lemma {:induction false} DecimalValue(n: nat)
    ensures DigitsValue(DecimalText(n)) == n
  {
    if n >= 10 {
      var d := DecimalText(n);
      DecimalValue(n / 10);
      assert d[..|d| - 1] == DecimalText(n / 10);
    }
  }

  lemma LeadingDigitsAll(d: string)
    requires forall i :: 0 <= i < |d| ==> IsDigit(d[i])
    ensures LeadingDigits(d) == d
  {
  }

  /** Text that does not start with white space is its own `trimStart`. */
  lemma TrimStartNoSpace(s: string)
    requires s == [] || !IsSpace(s[0])
    ensures TrimStart(s) == s
  {
  }

  /** A run of decimal digits reads back as the number it denotes. */
  lemma ParseDigits(d: string)
    requires |d| >= 1 && forall i :: 0 <= i < |d| ==> IsDigit(d[i])
    ensures ParseUnsigned(d) == Some(DigitsValue(d))
  {
    LeadingDigitsAll(d);
  }

  /** The rendered digits of a natural number read back as that number. */
  lemma ParseDecimal(m: nat)
    ensures ParseUnsigned(DecimalText(m)) == Some(m)
    ensures !IsSpace(DecimalText(m)[0]) && DecimalText(m)[0] != '-' && DecimalText(m)[0] != '+'
  {
    DecimalValue(m);
    ParseDigits(DecimalText(m));
    assert IsDigit(DecimalText(m)[0]);
  }

  /** A minus sign negates what follows it. */
  lemma ParseMinus(d: string, v: int)
    requires ParseUnsigned(d) == Some(v)
    ensures ParseSigned("-" + d) == Some(-v)
  {
    assert ("-" + d)[1..] == d;
  }

  /** `parseInt` reads back every rendered integer: `parseInt(`${n}`) === n`. */
  lemma ParseIntText(n: int)
    ensures ParseInt(IntText(n)) == Some(n)
  {
    var m := if n < 0 then -n else n;
    var d := DecimalText(m);
    ParseDecimal(m);
    if n < 0 {
      ParseMinus(d, m);
      TrimStartNoSpace("-" + d);
    } else {
      TrimStartNoSpace(d);
    }
  }
}

=== FILE: workflow.dfy ===
/**
 * What each step of the reconciliation pipeline does, as a function of the
 * service's replies: the value it produces and the requests it issues, in
 * order. The methods of `Engine.Client` are proved to issue exactly these
 * requests and return exactly these values; the lemmas in `Properties` are
 * stated about these functions.
 */
module Workflow {
  import opened Wrappers
  import opened Text
  import opened Records
  import opened Decisions
  import opened Oracle

  /** A step's result together with the requests it issued. */
  datatype Run<T> = Run(out: T, calls: seq<Call>)

  /** Why the pipeline stopped: missing settings, a refused fatal request, or a transport failure. */
  datatype Failure = MissingConfig(message: string) | RemoteError(message: string) | TransportError

  /** `{success: true, organization, person, listEntry, owner, affinityUrl}`. */
  datatype AddResult = AddResult(
    organization: Option<Org>,
    person: Option<Person>,
    listEntry: ListEntry,
    owner: Option<User>,
    url: string)

  datatype Outcome = Added(result: AddResult) | Failed(failure: Failure)

  /** `{exists: false}` or `{exists: true, organization, affinityUrl}`. */
  datatype DuplicateCheck = NoDuplicate | Duplicate(organization: Org, url: string)

  const ConfigMessage: string := "Please configure your Affinity API key and List ID in the extension settings."
  const PeopleListMessage: string := "Please configure the Interesting People List ID in extension settings."
  const StatusToSet: string := "Reached Out"
  const OrgEntityType: int := 0
  const PersonEntityType: int := 1
  const RelationshipStrength: int := 5

  // ------------------------------------------------------ user resolution

  /** `findInternalPersonByEmail`. */
  function InternalPersonRun(s: Service, email: string): Run<Option<Id>>
  {
    var out := match s.searchPersons(email)
      case Ok(Some(page)) => InternalPersonId(page.persons, email)
      case _ => None;
    Run(out, [SearchPersons(email)])
  }

  /** `findTeamMemberById`: the user record, else the first listed user with that id. */
  function TeamMemberRun(s: Service, userId: Option<Id>): Run<Option<User>>
  {
    match s.getUser(userId)
    case Ok(Some(u)) => Run(Some(u), [GetUser(userId)])
    case _ =>
      var out := match s.listUsers
        case Ok(Some(users)) => TeamMember(users, userId)
        case _ => None;
      Run(out, [GetUser(userId), ListUsers])
  }

  /** `userEmail || user.email`. */
  function EmailToSearch(userEmail: string, whoami: User): string
  {
    if userEmail != "" then userEmail else whoami.email
  }

  /** The person-id lookup by email, and the operator record once its result is merged in. */
  function EmailLookupRun(s: Service, userEmail: string, whoami: User): Run<User>
  {
    var email := EmailToSearch(userEmail, whoami);
    if email == "" then Run(whoami, [])
    else
      var found := InternalPersonRun(s, email);
      Run(if Truthy(found.out) then whoami.(personId := found.out) else whoami, found.calls)
  }

  /** `getCurrentUser`. */
  function CurrentUserRun(s: Service, userEmail: string): Run<Option<User>>
  {
    match s.whoami
    case Ok(Some(whoami)) =>
      var byEmail := EmailLookupRun(s, userEmail, whoami);
      var u := byEmail.out;
      if Truthy(u.personId) then Run(Some(u), [Whoami] + byEmail.calls)
      else
        var member := TeamMemberRun(s, u.userId);
        var merged := if member.out.Some? && Truthy(member.out.value.personId)
          then u.(personId := member.out.value.personId) else u;
        Run(Some(merged), [Whoami] + byEmail.calls + member.calls)
    case _ => Run(None, [Whoami])
  }

  // ------------------------------------------------ fields, owner, status

  /** `getListFields`. */
  function ListFieldsRun(s: Service, listId: string): Run<seq<Field>>
  {
    match s.listFields(listId)
    case Ok(Some(fields)) => Run(fields, [GetListFields(listId)])
    case _ =>
      var out := match s.allFields
        case Ok(Some(all)) => FieldsForList(all, listId)
        case _ => [];
      Run(out, [GetListFields(listId), GetAllFields])
  }

  /** The field-value write that sets the owner of a list entry to `ownerId`. */
  function OwnerWrite(fieldId: Id, entityId: Id, entryId: Id, ownerId: Id): Call
  {
    PostFieldValue(fieldId, entityId, Some(entryId), IdValue(ownerId))
  }

  /** The loop over the candidate owner ids: write each in turn, stop after the first accepted write. */
  function OwnerAttempts(s: Service, fieldId: Id, entityId: Id, entryId: Id, candidates: seq<Id>): seq<Call>
  {
    if candidates == [] then []
    else
      var c := OwnerWrite(fieldId, entityId, entryId, candidates[0]);
      if s.accepts(c) then [c]
      else [c] + OwnerAttempts(s, fieldId, entityId, entryId, candidates[1..])
  }

  /** `setListEntryOwner`. */
  function OwnerRun(s: Service, listId: string, entryId: Id, entityId: Id, user: User): seq<Call>
  {
    var fields := ListFieldsRun(s, listId);
    if |fields.out| == 0 then fields.calls
    else match OwnerField(fields.out)
      case None => fields.calls
      case Some(f) => fields.calls + OwnerAttempts(s, f.id, entityId, entryId, OwnerCandidates(user))
  }

  /** `setStatus`. */
  function StatusRun(s: Service, listId: string, entryId: Id, entityId: Id, status: string): seq<Call>
  {
    var fields := ListFieldsRun(s, listId);
    match StatusField(fields.out)
    case None => fields.calls
    case Some(f) => fields.calls + [PostFieldValue(f.id, entityId, Some(entryId), StatusValue(f, status))]
  }

  /** The owner step of a flow: `setListEntryOwner`, run only when the operator is known. */
  function OwnerStep(s: Service, listId: string, entryId: Id, entityId: Id, user: Option<User>): seq<Call>
  {
    if user.Some? then OwnerRun(s, listId, entryId, entityId, user.value) else []
  }

  // ------------------------------------------------------------- entities

  /** A fatal request: its parsed body, or the error `Failed to <action>: <message || statusText>`. */
  function Fatal<T>(r: Reply<T>, action: string): Result<T, Failure>
  {
    match r
    case Ok(Some(v)) => Success(v)
    case Ok(None) => Failure(TransportError)
    case NetworkError => Failure(TransportError)
    case Rejected(statusText, message) =>
      Failure(RemoteError("Failed to " + action + ": " + ErrorDetail(message, statusText)))
  }

  /** The organization request body: `{name}`, plus `domain` when it is non-empty. */
  function OrgRequest(name: string, domain: string): Call
  {
    CreateOrg(name, if domain != "" then Some(domain) else None)
  }

  /** `createOrganization`. */
  function CreateOrgRun(s: Service, name: string, domain: string): Run<Result<Org, Failure>>
  {
    var c := OrgRequest(name, domain);
    Run(Fatal(s.createOrg(c.name, c.domain), "create organization"), [c])
  }

  /** The person search term: the URL, or "undefined" when the caller has none. */
  function LinkedInTerm(url: Option<string>): string
  {
    match url
    case Some(u) => u
    case None => "undefined"
  }

  /** `findPersonByLinkedIn`: the first person of a `{persons: [...]}` body, if any. */
  function ExistingPerson(r: Reply<PersonPage>): Option<Person>
  {
    match r
    case Ok(Some(page)) => if page.wrapped && |page.persons| > 0 then Some(page.persons[0]) else None
    case _ => None
  }

  /** `addLinkedInField`: fetch the person fields, then write the URL into the first LinkedIn field. */
  function LinkedInFieldCalls(s: Service, personId: Id, url: Option<string>): seq<Call>
  {
    var write := match s.personFields
      case Ok(Some(fields)) =>
        (match LinkedInField(fields)
         case Some(f) =>
           [PostFieldValue(f.id, personId, None, match url case Some(u) => TextValue(u) case None => NoValue)]
         case None => [])
      case _ => [];
    [GetPersonFields] + write
  }

  /** `createPerson`: reuse the first search hit, else create the person and attach the URL. */
  function CreatePersonRun(s: Service, first: string, last: string, url: Option<string>): Run<Result<Person, Failure>>
  {
    var term := LinkedInTerm(url);
    match ExistingPerson(s.searchPersons(term))
    case Some(p) => Run(Success(p), [SearchPersons(term)])
    case None =>
      var created := Fatal(s.createPerson(first, last), "create person");
      var calls := [SearchPersons(term), CreatePerson(first, last)];
      match created
      case Failure(e) => Run(Failure(e), calls)
      case Success(p) => Run(Success(p), calls + LinkedInFieldCalls(s, p.id, url))
  }

  /** `linkPersonToOrganization`: three independent requests whose replies are ignored. */
  function LinkCalls(personId: Id, orgId: Id): seq<Call>
  {
    [SetOrgPersons(orgId, [personId]), SetPersonOrgs(personId, [orgId]),
     CreateRelationship(personId, orgId, RelationshipStrength)]
  }

  /** `addToList`. */
  function AddToListRun(s: Service, listId: string, entityId: Id, entityType: int): Run<Result<ListEntry, Failure>>
  {
    Run(Fatal(s.addListEntry(listId, entityId, entityType), "add to list"),
        [AddListEntry(listId, entityId, entityType)])
  }

  /** `addNote`, guarded by `data.note && data.note.trim()`. */
  function NoteCalls(note: string, entityId: Id, scope: NoteScope): seq<Call>
  {
    match NoteText(note)
    case Some(t) => [PostNote(t, scope, entityId)]
    case None => []
  }

  // --------------------------------------------------------------- flows

  /** What the deal-list flow does after the list entry: the owner, then the note. */
  function OrgFollowUps(s: Service, listId: string, entryId: Id, orgId: Id, user: Option<User>, note: string): seq<Call>
  {
    OwnerStep(s, listId, entryId, orgId, user) + NoteCalls(note, orgId, OrgScope)
  }

  /** What the people-list flow does after the list entry: the owner, the status, then the note. */
  function PersonFollowUps(s: Service, listId: string, entryId: Id, personId: Id, user: Option<User>, note: string)
    : seq<Call>
  {
    OwnerStep(s, listId, entryId, personId, user) + StatusRun(s, listId, entryId, personId, StatusToSet)
    + NoteCalls(note, personId, PersonScope)
  }

  /** The deal-list flow after the organization exists: list entry, owner, note. */
  function PlaceOrgRun(s: Service, st: Settings, note: string, user: Option<User>, org: Org, person: Option<Person>)
    : Run<Outcome>
  {
    var entry := AddToListRun(s, st.listId, org.id, OrgEntityType);
    match entry.out
    case Failure(e) => Run(Failed(e), entry.calls)
    case Success(le) =>
      Run(Added(AddResult(Some(org), person, le, user, EntityUrl(st.subdomain, "companies", org.id))),
          entry.calls + OrgFollowUps(s, st.listId, le.id, org.id, user, note))
  }

  /** The records the deal-list flow creates: the organization and, from a LinkedIn profile, the person. */
  datatype DealRecords = DealRecords(org: Org, person: Option<Person>)

  /**
   * The first half of `handleMasterDealList`: from a LinkedIn profile, the
   * "Stealth_" organization, then the person, then the links between them;
   * from a website, the organization as scraped.
   */
  function DealRecordsRun(s: Service, src: Source): Run<Result<DealRecords, Failure>>
  {
    match src
    case LinkedInProfile(fullName, url) =>
      var name := SplitName(fullName);
      var org := CreateOrgRun(s, OrgName(fullName), "");
      if org.out.Failure? then Run(Failure(org.out.error), org.calls)
      else
        var person := CreatePersonRun(s, name.first, name.last, Some(url));
        if person.out.Failure? then Run(Failure(person.out.error), org.calls + person.calls)
        else
          Run(Success(DealRecords(org.out.value, Some(person.out.value))),
              org.calls + person.calls + LinkCalls(person.out.value.id, org.out.value.id))
    case Website(companyName, domain) =>
      var org := CreateOrgRun(s, companyName, domain);
      if org.out.Failure? then Run(Failure(org.out.error), org.calls)
      else Run(Success(DealRecords(org.out.value, None)), org.calls)
  }

  /** `handleMasterDealList`: the records, then the organization's place on the deal list. */
  function MasterDealRun(s: Service, st: Settings, data: InputRecord, user: Option<User>): Run<Outcome>
  {
    var records := DealRecordsRun(s, data.source);
    match records.out
    case Failure(e) => Run(Failed(e), records.calls)
    case Success(r) =>
      var rest := PlaceOrgRun(s, st, data.note, user, r.org, r.person);
      Run(rest.out, records.calls + rest.calls)
  }

  /** The person to create in the people flow: split LinkedIn name, or `companyName || 'Unknown'`. */
  function PeopleFlowName(src: Source): (PersonName, Option<string>)
  {
    match src
    case LinkedInProfile(fullName, url) => (SplitName(fullName), Some(url))
    case Website(companyName, _) => (PersonName(if companyName != "" then companyName else "Unknown", ""), None)
  }

  /** The people-list flow after the person exists: list entry, owner, status, note. */
  function PlacePersonRun(s: Service, st: Settings, note: string, user: Option<User>, p: Person): Run<Outcome>
  {
    var listId := st.peopleListId;
    var entry := AddToListRun(s, listId, p.id, PersonEntityType);
    match entry.out
    case Failure(e) => Run(Failed(e), entry.calls)
    case Success(le) =>
      Run(Added(AddResult(None, Some(p), le, user, EntityUrl(st.subdomain, "persons", p.id))),
          entry.calls + PersonFollowUps(s, listId, le.id, p.id, user, note))
  }

  /** `handleInterestingPeople`. */
  function InterestingPeopleRun(s: Service, st: Settings, data: InputRecord, user: Option<User>): Run<Outcome>
  {
    if st.peopleListId == "" then Run(Failed(MissingConfig(PeopleListMessage)), [])
    else
      var who := PeopleFlowName(data.source);
      var person := CreatePersonRun(s, who.0.first, who.0.last, who.1);
      match person.out
      case Failure(e) => Run(Failed(e), person.calls)
      case Success(p) =>
        var rest := PlacePersonRun(s, st, data.note, user, p);
        Run(rest.out, person.calls + rest.calls)
  }

  /** `handleAddToAffinity`. */
  function AddRun(s: Service, st: Settings, data: InputRecord): Run<Outcome>
  {
    if st.apiKey == "" || st.listId == "" then Run(Failed(MissingConfig(ConfigMessage)), [])
    else
      var user := CurrentUserRun(s, st.userEmail);
      var flow := if data.target == InterestingPeople
        then InterestingPeopleRun(s, st, data, user.out)
        else MasterDealRun(s, st, data, user.out);
      Run(flow.out, user.calls + flow.calls)
  }

  /** `checkForDuplicate`. */
  function DuplicateRun(s: Service, st: Settings, src: Source): Run<DuplicateCheck>
  {
    if st.apiKey == "" then Run(NoDuplicate, [])
    else
      var term := SearchTerm(src);
      var out := match s.searchOrgs(term)
        case Ok(Some(orgs)) =>
          (match FindDuplicate(src, orgs)
           case Some(o) => Duplicate(o, EntityUrl(st.subdomain, "companies", o.id))
           case None => NoDuplicate)
        case _ => NoDuplicate;
      Run(out, [SearchOrgs(term)])
  }
}

=== FILE: wrappers.dfy ===
/** Option and Result, the shapes the engine's lookups and fatal steps return. */
module Wrappers {

  datatype Option<+T> = None | Some(value: T)

  /** A step that either yields a value or stops the pipeline with an error. */
  datatype Result<+T, +E> = Success(value: T) | Failure(error: E)
}
